=== FILE: README.md ===
# Khan & Shah matrix cipher over Z/95, modelled in Dafny

`main.py` encrypts text with a Khan & Shah style public-key matrix cipher.

**Text and blocks.** Text is cut into 2x2 integer blocks, one cell per character, with value "code point minus 32".

**Keys.** The private key is a pair of circulant matrices A = [[14,13],[13,14]] and B = [[12,11],[11,12]]. The public key is [95, key1, key2]:
- key1 = A^-1 A^-1 B^-1 N A A B;
- key2 = A^-1 B^-1 B^-1 N^-1 A B B;
- N = [[14,15],[43,58]] is a fixed mixing matrix;
- every product is reduced modulo 95 after each step.

**Encryption.** Each block P is blinded with a random unit u and a random circulant mask X = [[p,q],[q,p]]:
- C1 = u^-1 X^-1 key2 X;
- C2 = u P X^-1 key1 X.

**Decryption.** It computes C2 (A^-1 B C1 B^-1 A). Because circulants commute, this is P mod 95, which is P when the text is printable (character codes 32 to 126).

**Ciphertext text.** A ciphertext is written as `<`, eight characters per pair (the cells of C1, then of C2), and `>`.

**Inverses.** Both modular inverses are found by exhaustive search:
- a scan over [0, mod) for a number;
- a scan over [0, mod)² for each column of a 2x2 matrix.

The model follows the source's imperative shape. Each function of `main.py` except the two printing wrappers `encrypt` and `decrypt` is a Dafny `method` whose loops mirror the source's loops. Each method is proved equal to a recursive or comprehension-based reference function, and the properties the source and its comments promise are proved as lemmas about those functions.

| file | module | models |
|---|---|---|
| `wrappers.dfy` | `Wrappers` | `Option`, `Result`: the source's `"error"` string becomes `None` / `Failure` |
| `polynomial.dfy` | `Polynomial` | ring identities used by the matrix proofs |
| `matrix.dfy` | `Matrix` | `Mat2`, the ciphertext pair `CipherBlock`, `np.mod(np.dot(..))` as `Mul`, left-to-right products `Prod`, commutation of circulants, rewriting of products |
| `inverse.dfy` | `Inverse` | `mod_num_inverse`, `mod_matrix_inverse` |
| `keys.dfy` | `Keys` | `get_keys` |
| `cipher.dfy` | `Cipher` | `encrypt_matrices`, `decrypt_matrices`, the block round trip |
| `codec.dfy` | `Codec` | `letters_to_nums`, `nums_to_letters`, `nums_to_letters_enc`, `letters_to_nums_enc` |
| `pipeline.dfy` | `Pipeline` | the flow of the `encrypt` / `decrypt` wrappers without their console output |

Behaviour of the code that is easy to misread:
- **Last hit wins.** `mod_matrix_inverse` keeps the *last* solution of each column system in row-major order, because a hit overwrites the variable. A first-hit search would return the same matrix: since the returned matrix is a two-sided inverse and unique among reduced matrices (`Inverse.MatInverseUnique`), there is at most one solution per column, so the two readings agree.
- **No character check.** `letters_to_nums` never rejects a character below code 32. It produces a negative cell.
- **Empty ciphertext.** `decrypt_matrices` searches the key inverses inside its loop. An empty ciphertext therefore decrypts to the empty list even with a non-invertible key.
- **Modulus 1.** `mod_num_inverse(num, 1)` is `"error"`, since (num·0) % 1 is 0, not 1, although every number is coprime to 1.
- **Unbounded retry.** The random retry loops have no retry bound.
- **`get_keys` prints nothing.** Its comment (main.py:70-73) promises console output, but the code (main.py:75-109) only computes and returns the keys.
- **Only printable text round-trips.** Decryption returns each cell modulo 95, so a character outside codes 32 to 126 comes back as the character of its cell mod 95. A line feed (cell -22) comes back as 'i' (cell 73); see `Pipeline.LineFeedComesBackAsI`.

## Model

| member | source | states |
|---|---|---|
| Inverse.ModNumInverse | main.py:49-64 | returns exactly `NumInverse(num, mod)`; a returned i lies in [0, mod) with (num·i) % mod == 1; "error" exactly when no i at all has that property |
| Inverse.FirstInverseFrom | main.py:60-62 | reference definition of the upward scan from k: the first i in [k, mod) with (num·i) % mod == 1, or none; its meaning is `Inverse.FirstInverseFromMeaning` |
| Inverse.NumInverse | main.py:60-64 | reference definition of what mod_num_inverse returns: the scan from 0, `None` for "error"; its properties are `Inverse.NumInverseIsLeast` and `Inverse.NumInverseSharedFactor` |
| Inverse.FirstInverseFromMeaning | main.py:60-62 | the upward scan from k finds nothing iff no inverse lies at or after k; otherwise it returns an inverse at or after k with none between k and it |
| Inverse.NumInverseIsLeast | main.py:60-64 | the result is "error" iff no inverse exists in [0, mod); otherwise it is an inverse and the least one; mod <= 1 always gives "error" |
| Inverse.SharedFactorNoSolution | main.py:61 | when d > 1 divides both num and mod, no j makes (num·j) % mod equal 1 |
| Inverse.NumInverseSharedFactor | main.py:60-64 | a number sharing a factor d > 1 with the modulus gets "error" |
| Inverse.NumInverseExample | main.py:49-64 | mod_num_inverse(5, 10) is "error" |
| Inverse.LastSolutionStep | main.py:37-41 | one inner-loop step overwrites the kept column with (i, ii) exactly when (i, ii) passes the test |
| Inverse.Solves | main.py:37-40 | reference definition of the two tests of the inner loop: column (i, ii) solves mat·(i, ii) ≡ (t0, t1) mod m, with (1, 0) for line 37 and (0, 1) for line 40 |
| Inverse.LastSolution | main.py:34-41 | reference definition of the overwritten column variable: the last grid position in row-major order before (i, ii) that solves the system; its meaning is `Inverse.LastSolutionMeaning` |
| Inverse.MatInverse | main.py:31-46 | reference definition of what mod_matrix_inverse returns: the two last solutions as columns, `None` for "error" (also for mod <= 0, where both loops are empty); its properties are `Inverse.MatInverseIsInverse`, `Inverse.MatInverseNoneIff`, `Inverse.MatInverseUnique` and `Inverse.MatInverseFinds` |
| Inverse.LastSolutionMeaning | main.py:34-41 | after the positions before (i, ii) the kept column is "none" iff no earlier grid position solves the system; otherwise it is a solving grid position with no solving position between it and (i, ii) |
| Inverse.ModMatrixInverse | main.py:18-46 | returns exactly `MatInverse(mat, mod)`; a returned matrix has cells in [0, mod) and mat·result ≡ I |
| Inverse.MatInverseIsInverse | main.py:34-44 | a returned matrix has cells in [0, mod), its first column solves mat·col ≡ (1,0), its second solves mat·col ≡ (0,1), and it is a two-sided inverse (mat·inv ≡ inv·mat ≡ I); mod > 1 |
| Inverse.MatInverseNoneIff | main.py:31-46 | "error" iff one of the two column systems has no solution in [0, mod)² |
| Inverse.MatInverseLastWins | main.py:34-41 | each column of the result is the last solution in row-major (i, ii) order: no later grid position solves its system |
| Inverse.MatInverseUnique | main.py:34-44 | every right inverse with cells in [0, mod) equals the returned matrix |
| Inverse.MatInverseFinds | main.py:34-46 | conversely, a matrix with a right inverse y whose cells lie in [0, mod) gets exactly y back |
| Inverse.ColumnsOfRightInverse | main.py:37-41 | the columns of any right inverse mod m pass the two tests the search makes |
| Inverse.MatInverseCirculant | main.py:34-44 | the inverse found for [[p,q],[q,p]] again has that form |
| Matrix.Mul | main.py:89 | np.mod(np.dot(x, y), m) has every cell in [0, m) |
| Matrix.Dot | main.py:89 | reference definition of np.dot on 2x2 integer matrices, with no reduction |
| Matrix.Scale | main.py:147 | reference definition of numpy's `k * x`: every cell times k, with no reduction; related to products by `Matrix.ScalarCommutes` |
| Matrix.Reduce | main.py:89 | np.mod(x, m) for m > 0: every cell lies in [0, m) |
| Matrix.Prod | main.py:89-101 | the left-to-right chain of reduced products, as lines 89-94 and 96-101 build it step by step; for m > 1 every cell lies in [0, m) |
| Matrix.MulAssoc | main.py:89-101 | the reduced product is associative, so a left-to-right chain equals any bracketing |
| Matrix.MulIdentity | main.py:89-101 | multiplying by I on either side only reduces |
| Matrix.CirculantsCommute | main.py:138 | two matrices of the form [[p,q],[q,p]] commute modulo m and their product has that form |
| Matrix.ScalarCommutes | main.py:147 | `k * x` reduced is the product with the scalar matrix kI, on either side |
| Matrix.RightInverseIsLeftInverse | main.py:43-44 | a right inverse modulo m is also a left inverse |
| Matrix.ProdAppend | main.py:89-101 | the chained product of a concatenation is the product of the two chained products |
| Matrix.ReplaceAt | main.py:89-101 | a run of factors may be replaced by another run with the same product |
| Matrix.CancelAt | main.py:182-187 | adjacent factors whose product is I cancel from a chain |
| Matrix.ScalarToFront | main.py:147-150 | a scalar factor kI moves to the front of any run of factors |
| Matrix.ConjugateCirculant | main.py:147-152 | x w x^-1 collapses to w when x and the product of w are circulant |
| Keys.DeriveKeysShape | main.py:103-109 | derived keys keep the modulus, the private key is [A, B], and key1, key2 have cells in [0, m) |
| Keys.DeriveKeys | main.py:75-109 | reference definition of get_keys for any A, B, N and m: key1 and key2 are the chains of lines 89-94 and 96-101, and `None` where one of the three inverse searches reports "error" (the source would then fail in np.dot); its properties are `Keys.DeriveKeysShape`, `Keys.DerivedKeyCore` and `Cipher.DecryptEncryptBlock` |
| Keys.Key1Word | main.py:89-94 | reference definition of the factors of key1 in the order lines 89-94 multiply them: A^-1, A^-1, B^-1, N, A, A, B |
| Keys.Key2Word | main.py:96-101 | reference definition of the factors of key2 in the order lines 96-101 multiply them: A^-1, B^-1, B^-1, N^-1, A, B, B |
| Keys.CirculantMiddle | main.py:89-101 | for circulant A, B: A A B A^-1 B A^-1 B^-1 B^-1 ≡ I |
| Keys.KeyCore | main.py:89-101 | for circulant A, B: key1 A^-1 B key2 ≡ A^-1 B, the identity decryption rests on |
| Keys.DerivedKeyCore | main.py:89-101 | the same identity for the keys derived by the searches |
| Keys.FixedInverseA | main.py:81 | A^-1 mod 95 is [[92,91],[91,92]] |
| Keys.FixedInverseB | main.py:82 | B^-1 mod 95 is [[79,78],[78,79]] |
| Keys.FixedInverseN | main.py:83 | N^-1 mod 95 is [[14,75],[6,82]] |
| Keys.ProdSeven | main.py:89-94 | the chained product of seven factors is the step-by-step fold |
| Keys.FixedKey1 | main.py:89-94 | key1 folds to [[53,30],[28,19]] |
| Keys.FixedKey2 | main.py:96-101 | key2 folds to [[84,21],[60,12]] |
| Keys.FixedKeys | main.py:75-109 | none of the three searches fails and the fixed key pair is ([95, key1, key2], [A, B]) with those values |
| Keys.GetKeys | main.py:67-109 | deterministic; private key [A, B]; public modulus 95; key1 = [[53,30],[28,19]], key2 = [[84,21],[60,12]], the derived key pair |
| Cipher.FirstUnit | main.py:128-131 | the unit the retry loop settles on has an inverse mod m |
| Cipher.Accepted | main.py:130-140 | reference definition of the exit test of the two retry loops: the unit and the mask both have inverses mod m |
| Cipher.FirstMask | main.py:135-143 | the mask the retry loop settles on has an inverse mod m |
| Cipher.Chosen | main.py:128-145 | the blinding both retry loops settle on is accepted by both searches |
| Cipher.FirstUnitMeaning | main.py:128-131 | the loop settles iff some draw is invertible, and then on the first invertible draw |
| Cipher.FirstMaskMeaning | main.py:135-143 | the loop settles iff some drawn mask is invertible, and then on the first one |
| Cipher.DrawUnit | main.py:128-133 | returns the first invertible draw u and mod_num_inverse(u) |
| Cipher.DrawMask | main.py:135-145 | returns the first invertible mask X and mod_matrix_inverse(X) |
| Cipher.EncryptBlock | main.py:147-152 | C1 and C2 have every cell in [0, m) |
| Cipher.DecryptBlock | main.py:182-187 | the decrypted block has every cell in [0, m) |
| Cipher.CipherWords | main.py:147-152 | C1 ≡ u^-1 X^-1 key2 X and C2 ≡ u P X^-1 key1 X as chained products |
| Cipher.DecryptWord | main.py:182-185 | A^-1 B C1 B^-1 A is the chained product with C1 spelled out |
| Cipher.ScalarInverse | main.py:133 | (uI)(u^-1 I) ≡ I |
| Cipher.UnitCancels | main.py:147-150 | u and u^-1 cancel wherever they sit in a chain |
| Cipher.WordCollapses | main.py:147-187 | P X^-1 key1 X A^-1 B X^-1 key2 X B^-1 A ≡ P |
| Cipher.DecryptEncryptBlock | main.py:147-187 | decrypting the encryption of P under keys derived from circulant A, B and any accepted blinding gives P mod m |
| Cipher.EncryptMatrices | main.py:112-160 | one pair per block, same length, pair i is the encryption of block i under the blinding its draws settle on, every cell in [0, m) |
| Cipher.Decrypt | main.py:176-191 | fails iff the ciphertext is non-empty and A or B has no inverse; otherwise one block per pair, every cell in [0, m) |
| Cipher.DecryptMatrices | main.py:163-191 | returns exactly `Decrypt` |
| Cipher.DecryptEncrypt | main.py:112-191 | decrypting the encryption of a list of blocks gives the blocks reduced mod m, same length, block for block |
| Codec.Padded | main.py:207-208 | length a multiple of 4, fewer than 4 characters added, the text is a prefix, the rest spaces |
| Codec.CellOf | main.py:215-216 | reference definition of the cell a character becomes: ord(c) - 32 |
| Codec.IsCharCode | main.py:236-258 | reference definition of the domain of `chr` at lines 236 and 258, as a Dafny `char` holds it: [0, 0xD800) and [0xE000, 0x110000); the surrogates 0xD800-0xDFFF left out of it are the gap named on the `Codec.NumsToLetters` line of "## Left out" |
| Codec.BlockAt | main.py:213-216 | reference definition of block k: the characters 4k to 4k + 3 as cells, row by row |
| Codec.Blocks | main.py:212-216 | the blocks of a text whose length is a multiple of 4: exactly len / 4 of them, block k being `Codec.BlockAt` k |
| Codec.LettersToNums | main.py:194-218 | returns the blocks of the padded text; ceil(len / 4) of them |
| Codec.BlocksOfPadded | main.py:207-216 | cell k of the blocks is ord(s[k]) - 32 in row-major order; padding cells are 0 |
| Codec.Flatten | main.py:233-235 | the cells of a list of blocks in the order the three nested loops visit them: 4 per block; placement is `Codec.FlattenAt` |
| Codec.FlattenAt | main.py:233-235 | cell j of block q sits at 4q + j of the cell list |
| Codec.Chars | main.py:233-235 | succeeds iff every cell + 32 is a character code, and then character k is chr(cell k + 32) |
| Codec.NumsToLetters | main.py:221-238 | returns exactly the characters of the blocks' cells, or the error chr raises |
| Codec.TextRoundTrip | main.py:194-238 | nums_to_letters(letters_to_nums(s)) is s padded with spaces to a multiple of 4 |
| Codec.BlockAtChars | main.py:212-216 | reading block q back from the characters of some cells gives the block those cells came from |
| Codec.BlocksRoundTrip | main.py:194-238 | letters_to_nums(nums_to_letters(ms)) == ms, with no padding added |
| Codec.HalvesAt | main.py:255-256 | the cell order of nums_to_letters_enc visits C1 then C2 of each pair |
| Codec.FramedText | main.py:252-261 | succeeds iff every cell has a character, and then is '<', 8n characters, '>' |
| Codec.Halves | main.py:254-255 | the matrices of the ciphertext pairs in the order the two outer loops visit them, C1 then C2: 2 per pair; placement is `Codec.HalvesAt` |
| Codec.NumsToLettersEnc | main.py:241-261 | returns exactly the framed text of the pairs |
| Codec.FlattenHalvesAt | main.py:255-258 | cell j of C1 of pair i is at 8i + j, of C2 at 8i + 4 + j |
| Codec.FlattenPairCells | main.py:255-258 | the cells nums_to_letters_enc writes are laid out pair by pair |
| Codec.PairCellsUnique | main.py:255-258 | the pair-by-pair layout determines the cells |
| Codec.PairCellsFlatten | main.py:255-258 | cells laid out pair by pair are the cells written |
| Codec.PairCellsFail | main.py:258 | one cell without a character makes the framed text fail |
| Codec.PairCellsFramed | main.py:252-261 | '<', the characters of the cells, '>' is the framed text |
| Codec.LettersToNumsEnc | main.py:264-284 | returns exactly `Pairs(s)`: |s| / 8 pairs read from index 0 |
| Codec.Pairs | main.py:277-282 | the pairs read from a text, eight characters each: exactly len / 8 of them, a remainder of fewer than eight dropped |
| Codec.HalvesOfPairs | main.py:277-282 | matrix q of the pairs read from s is block q of s |
| Codec.PairsOfBlocks | main.py:277-282 | reading pairs from a text whose blocks are the halves of cs gives cs |
| Codec.PairsOfChars | main.py:241-284 | letters_to_nums_enc of the unframed characters of cs gives cs |
| Codec.PairsRoundTrip | main.py:241-284 | letters_to_nums_enc applied to the text between '<' and '>' recovers the pairs |
| Codec.FramedRoundTrip | main.py:241-284 | nums_to_letters_enc(letters_to_nums_enc(s)) frames the first 8·(len / 8) characters of s; the rest is dropped |
| Codec.FramedTextOfReduced | main.py:252-261 | pairs with cells in [0, m), m <= 0xD7E0, always have a framed text |
| Pipeline.PrintableBlocksReduced | main.py:207-216 | the blocks of text with codes 32..126 have cells in [0, 95) |
| Pipeline.DecryptFixed | main.py:163-191 | under the fixed keys, decrypting the encryption of reduced blocks gives the blocks unchanged |
| Pipeline.EncryptDecryptReduces | main.py:300-338 | for any text, the framed ciphertext exists, and the characters between '<' and '>' decrypt to the blocks of the padded text, each cell reduced mod 95 |
| Pipeline.EncryptDecryptText | main.py:300-338 | a printable text (codes 32 to 126), once encrypted and framed, decrypts from the characters between '<' and '>' to the padded text |
| Pipeline.LineFeedBlocks | main.py:207-216 | the text "\n" pads to the single block [[-22, 0], [0, 0]] |
| Pipeline.LineFeedResultChars | main.py:233-236 | the block [[73, 0], [0, 0]] reads back as "i" and three spaces |
| Pipeline.LineFeedComesBackAsI | main.py:300-338 | the text "\n" is encrypted and decrypted to "i" and three spaces, which is not its padded form: only printable text round-trips |

## Left out

- The console output of `encrypt` and `decrypt` (main.py:300-338), and the `repr` escaping of the printed ciphertext, are not modelled. `Pipeline.EncryptDecryptText` states what the two wrappers compute together.
- `r.randint` (main.py:128-143) becomes a parameter. Each block gets a `Draws` value: the sequence of units and masks drawn, in order.
  - The retry loops walk these sequences.
  - `Cipher.EncryptMatrices` requires that each sequence holds an acceptable value. It does not model a draw sequence that never succeeds, which loops forever in the source. For a modulus of at most 1 the source raises in `randint` at main.py:128 instead, since the range [1, m-1] is empty. No draw can be accepted there, and the requires excludes that case.
  - The draws are not restricted to the ranges `randint` uses: [1, m-1] for u, [0, m-1] and then [0, m] for p and q.
- numpy's int64 arithmetic is modelled on unbounded integers. All products here are of cells of at most 95 (the mask redraws of main.py:141-142 can give 95), and of cells read from text, which lie in [-32, 0x10FFDF]. This covers the plaintext blocks and the ciphertext cells `decrypt` reads from pasted text (main.py:279-280). No product can overflow.
- Codec.NumsToLetters: Python's `chr` also accepts the surrogate code points 0xD800-0xDFFF, which a Dafny `char` cannot hold. The model reports `CharOutOfRange` for them where the source returns a lone surrogate.
- Codec.NumsToLettersEnc: same surrogate difference as `Codec.NumsToLetters`.
- Codec.LettersToNums: a Python string may hold a lone surrogate (0xD800-0xDFFF), which `ord` maps to a cell; a Dafny `string` cannot hold one, so such inputs are not modelled.
- Codec.LettersToNumsEnc: the same lone-surrogate inputs as `Codec.LettersToNums` are not modelled.
- Codec.NumsToLetters: the source's two loops over rows and columns are modelled as one loop over the four cells in row-major order. The same holds for the innermost two loops of `Codec.NumsToLettersEnc`.
- `letters_to_nums_enc` does not strip the `<` and `>` frame. `decrypt` hands it the string as pasted, so the round trip is stated on the characters between the frame.
- Inverse.NumInverseIsLeast: the converse of `Inverse.NumInverseSharedFactor` (a number coprime to mod > 1 always has an inverse, Bezout's identity) is not proved. The model states "error" exactly when no inverse exists in [0, mod).
- The running time of the O(mod) and O(mod²) searches is not modelled.

=== FILE: cipher.dfy ===
/**
 * Block encryption and decryption, encrypt_matrices and decrypt_matrices
 * (main.py lines 112-191). Each plaintext block P is blinded with a unit u and
 * a circulant mask X = [[p, q], [q, p]]:
 *   C1 = u^-1 X^-1 key2 X,    C2 = u P X^-1 key1 X,
 * and decryption computes C2 (A^-1 B C1 B^-1 A), which is P again modulo m.
 */
module Cipher {
  import opened Wrappers
  import opened Matrix
  import opened Inverse
  import opened Keys

  /** The random choices for one block: the unit u and the mask [[p, q], [q, p]]. */
  datatype Blinding = Blinding(u: int, p: int, q: int)

  /**
   * The random draws made for one block, in order: the first entry of each is
   * the initial draw (main.py:128 and 135-136), the rest are the redraws of the
   * retry loops (main.py:130-131 and 140-142).
   */
  datatype Draws = Draws(units: seq<int>, masks: seq<(int, int)>)

  /** The retry loops stop on a unit with an inverse mod m and on a mask with an inverse mod m. */
  predicate Accepted(bl: Blinding, m: int) {
    NumInverse(bl.u, m).Some? && MatInverse(Circ(bl.p, bl.q), m).Some?
  }

  // ---------------------------------------------------------------------------
  // The retry loops

  /** The first drawn unit that has an inverse mod m. */
  function FirstUnit(us: seq<int>, m: int): (r: Option<int>)
    ensures r.Some? ==> NumInverse(r.value, m).Some?
  {
    if us == [] then None
    else if NumInverse(us[0], m).Some? then Some(us[0])
    else FirstUnit(us[1..], m)
  }

  /** The first drawn mask that has an inverse mod m. */
  function FirstMask(xs: seq<(int, int)>, m: int): (r: Option<(int, int)>)
    ensures r.Some? ==> MatInverse(Circ(r.value.0, r.value.1), m).Some?
  {
    if xs == [] then None
    else if MatInverse(Circ(xs[0].0, xs[0].1), m).Some? then Some(xs[0])
    else FirstMask(xs[1..], m)
  }

  /** The blinding the two retry loops settle on, when the draws contain acceptable values. */
  function Chosen(dr: Draws, m: int): (r: Option<Blinding>)
    ensures r.Some? ==> Accepted(r.value, m)
  {
    var u, x := FirstUnit(dr.units, m), FirstMask(dr.masks, m);
    if u.Some? && x.Some? then Some(Blinding(u.value, x.value.0, x.value.1)) else None
  }

  lemma {:induction false} FirstUnitMeaning(us: seq<int>, m: int)
    ensures FirstUnit(us, m).Some? <==> exists k :: 0 <= k < |us| && NumInverse(us[k], m).Some?
    ensures FirstUnit(us, m).Some? ==>
      exists k :: 0 <= k < |us| && us[k] == FirstUnit(us, m).value && NumInverse(us[k], m).Some? &&
        forall j :: 0 <= j < k ==> NumInverse(us[j], m).None?
  {
    if us != [] {
      FirstUnitMeaning(us[1..], m);
      if NumInverse(us[0], m).None? {
        if FirstUnit(us, m).Some? {
          var k :| 0 <= k < |us[1..]| && us[1..][k] == FirstUnit(us, m).value && NumInverse(us[1..][k], m).Some? &&
            forall j :: 0 <= j < k ==> NumInverse(us[1..][j], m).None?;
          assert us[k + 1] == us[1..][k];
          forall j | 0 <= j < k + 1 ensures NumInverse(us[j], m).None? {
            if j > 0 { assert us[j] == us[1..][j - 1]; }
          }
        }
        forall k | 0 < k < |us| && NumInverse(us[k], m).Some? ensures FirstUnit(us, m).Some? {
          assert us[1..][k - 1] == us[k];
        }
      }
    }
  }

  lemma {:induction false} FirstMaskMeaning(xs: seq<(int, int)>, m: int)
    ensures FirstMask(xs, m).Some? <==> exists k :: 0 <= k < |xs| && MatInverse(Circ(xs[k].0, xs[k].1), m).Some?
    ensures FirstMask(xs, m).Some? ==>
      exists k :: 0 <= k < |xs| && xs[k] == FirstMask(xs, m).value && MatInverse(Circ(xs[k].0, xs[k].1), m).Some? &&
        forall j :: 0 <= j < k ==> MatInverse(Circ(xs[j].0, xs[j].1), m).None?
  {
    if xs != [] {
      FirstMaskMeaning(xs[1..], m);
      if MatInverse(Circ(xs[0].0, xs[0].1), m).None? {
        if FirstMask(xs, m).Some? {
          var k :| 0 <= k < |xs[1..]| && xs[1..][k] == FirstMask(xs, m).value &&
            MatInverse(Circ(xs[1..][k].0, xs[1..][k].1), m).Some? &&
            forall j :: 0 <= j < k ==> MatInverse(Circ(xs[1..][j].0, xs[1..][j].1), m).None?;
          assert xs[k + 1] == xs[1..][k];
          forall j | 0 <= j < k + 1 ensures MatInverse(Circ(xs[j].0, xs[j].1), m).None? {
            if j > 0 { assert xs[j] == xs[1..][j - 1]; }
          }
        }
        forall k | 0 < k < |xs| && MatInverse(Circ(xs[k].0, xs[k].1), m).Some? ensures FirstMask(xs, m).Some? {
          assert xs[1..][k - 1] == xs[k];
        }
      }
    }
  }

  /** main.py:128-133: redraw u until mod_num_inverse succeeds, then invert it. */
  method DrawUnit(us: seq<int>, m: int) returns (u: int, uInv: int)
    requires FirstUnit(us, m).Some?
    ensures u == FirstUnit(us, m).value && NumInverse(u, m) == Some(uInv)
    ensures m > 1
  {
    var k := 0;
    u := us[0];
    var inv := ModNumInverse(u, m);
    while inv.None?
      invariant 0 <= k < |us| && u == us[k] && inv == NumInverse(u, m)
      invariant FirstUnit(us[k..], m) == FirstUnit(us, m)
      decreases |us| - k
    {
      assert us[k..][1..] == us[k + 1..];
      k := k + 1;
      u := us[k];
      inv := ModNumInverse(u, m);
    }
    assert us[k..][0] == u;
    uInv := inv.value;
    NumInverseIsLeast(u, m);
  }

  /** main.py:135-145: redraw the mask until mod_matrix_inverse succeeds, then invert it. */
  method DrawMask(xs: seq<(int, int)>, m: int) returns (x: Mat2, xInv: Mat2)
    requires FirstMask(xs, m).Some?
    ensures x == Circ(FirstMask(xs, m).value.0, FirstMask(xs, m).value.1)
    ensures MatInverse(x, m) == Some(xInv)
  {
    var k := 0;
    x := Circ(xs[0].0, xs[0].1);
    var inv := ModMatrixInverse(x, m);
    while inv.None?
      invariant 0 <= k < |xs| && x == Circ(xs[k].0, xs[k].1) && inv == MatInverse(x, m)
      invariant FirstMask(xs[k..], m) == FirstMask(xs, m)
      decreases |xs| - k
    {
      assert xs[k..][1..] == xs[k + 1..];
      k := k + 1;
      x := Circ(xs[k].0, xs[k].1);
      inv := ModMatrixInverse(x, m);
    }
    assert xs[k..][0] == xs[k];
    xInv := inv.value;
  }

  // ---------------------------------------------------------------------------
  // One block

  /** main.py:147-152: the ciphertext pair of plaintext block p under pub and blinding bl. */
  function EncryptBlock(p: Mat2, pub: PublicKey, bl: Blinding): (r: CipherBlock)
    requires Accepted(bl, pub.modulus)
    ensures Reduced(r.c1, pub.modulus) && Reduced(r.c2, pub.modulus)
  {
    var m := pub.modulus;
    var uInv := NumInverse(bl.u, m).value;
    var x := Circ(bl.p, bl.q);
    var xInv := MatInverse(x, m).value;
    CipherBlock(Mul(Mul(Scale(uInv, xInv), pub.key2, m), x, m),
                Mul(Mul(Mul(Scale(bl.u, p), xInv, m), pub.key1, m), x, m))
  }

  /** main.py:182-187: C2 (A^-1 B C1 B^-1 A) with the searched inverses aInv, bInv. */
  function DecryptBlock(cb: CipherBlock, priv: PrivateKey, aInv: Mat2, bInv: Mat2, m: int): (r: Mat2)
    requires m > 0
    ensures Reduced(r, m)
  {
    var d := Mul(Mul(Mul(Mul(aInv, priv.b, m), cb.c1, m), bInv, m), priv.a, m);
    Mul(cb.c2, d, m)
  }

  /** Both ciphertext halves as words: C1 = u^-1 X^-1 key2 X and C2 = u P X^-1 key1 X. */
  lemma CipherWords(p: Mat2, pub: PublicKey, bl: Blinding)
    requires Accepted(bl, pub.modulus)
    ensures var m := pub.modulus;
      var cb := EncryptBlock(p, pub, bl);
      var x := Circ(bl.p, bl.q);
      var xInv := MatInverse(x, m).value;
      cb.c1 == Prod([Circ(NumInverse(bl.u, m).value, 0), xInv, pub.key2, x], m) &&
      cb.c2 == Prod([Circ(bl.u, 0), p, xInv, pub.key1, x], m)
  {
    var m := pub.modulus;
    var u, uInv := bl.u, NumInverse(bl.u, m).value;
    var x := Circ(bl.p, bl.q);
    var xInv := MatInverse(x, m).value;
    ProdPair(Circ(uInv, 0), xInv, m);
    ScalarCommutes(uInv, xInv, m);
    MulReduceLeft(Scale(uInv, xInv), pub.key2, m);
    ProdSnoc([Circ(uInv, 0), xInv], pub.key2, m);
    assert [Circ(uInv, 0), xInv] + [pub.key2] == [Circ(uInv, 0), xInv, pub.key2];
    ProdSnoc([Circ(uInv, 0), xInv, pub.key2], x, m);
    assert [Circ(uInv, 0), xInv, pub.key2] + [x] == [Circ(uInv, 0), xInv, pub.key2, x];
    ProdPair(Circ(u, 0), p, m);
    ScalarCommutes(u, p, m);
    MulReduceLeft(Scale(u, p), xInv, m);
    ProdSnoc([Circ(u, 0), p], xInv, m);
    assert [Circ(u, 0), p] + [xInv] == [Circ(u, 0), p, xInv];
    ProdSnoc([Circ(u, 0), p, xInv], pub.key1, m);
    assert [Circ(u, 0), p, xInv] + [pub.key1] == [Circ(u, 0), p, xInv, pub.key1];
    ProdSnoc([Circ(u, 0), p, xInv, pub.key1], x, m);
    assert [Circ(u, 0), p, xInv, pub.key1] + [x] == [Circ(u, 0), p, xInv, pub.key1, x];
  }

  /** The decryption matrix A^-1 B C1 B^-1 A as a word, with C1 spelled out. */
  lemma DecryptWord(ai: Mat2, b: Mat2, c1: Mat2, w1: seq<Mat2>, bi: Mat2, a: Mat2, m: int)
    requires m > 1 && c1 == Prod(w1, m)
    ensures Mul(Mul(Mul(Mul(ai, b, m), c1, m), bi, m), a, m) == Prod([ai, b] + w1 + [bi, a], m)
  {
    ProdPair(ai, b, m);
    ProdSnoc([ai, b], c1, m);
    assert [ai, b] + [c1] == [ai, b, c1];
    ProdSnoc([ai, b, c1], bi, m);
    assert [ai, b, c1] + [bi] == [ai, b, c1, bi];
    ProdSnoc([ai, b, c1, bi], a, m);
    assert [ai, b, c1, bi] + [a] == [ai, b, c1, bi, a];
    ProdSingle(c1, m);
    ReduceReduced(c1, m);
    ReplaceAt([ai, b], [c1], w1, [bi, a], m);
    assert [ai, b] + [c1] + [bi, a] == [ai, b, c1, bi, a];
  }

  /** The scalar matrices u I and u^-1 I multiply to the identity. */
  lemma ScalarInverse(u: int, ui: int, m: int)
    requires m > 1 && (u * ui) % m == 1
    ensures Mul(Circ(u, 0), Circ(ui, 0), m) == Identity()
  {
    assert Dot(Circ(u, 0), Circ(ui, 0)) == Mat2(u * ui, 0, 0, u * ui);
  }

  /** The blinding unit u and its inverse u^-1 cancel wherever they sit in a word. */
  lemma UnitCancels(u: int, ui: int, s: seq<Mat2>, w: seq<Mat2>, t: seq<Mat2>, m: int)
    requires m > 1 && (u * ui) % m == 1
    ensures Prod(s + [Circ(u, 0)] + w + [Circ(ui, 0)] + t, m) == Prod(s + w + t, m)
  {
    var U, Ui := Circ(u, 0), Circ(ui, 0);
    ScalarToFront(s + [U], w, ui, t, m);
    ScalarInverse(u, ui, m);
    CancelAt(s, U, Ui, w + t, m);
    assert s + [U] + [Ui] + w + t == s + [U, Ui] + (w + t);
    assert s + (w + t) == s + w + t;
  }

  /**
   * With u^-1 cancelled, the word P X^-1 key1 X A^-1 B X^-1 key2 X B^-1 A collapses
   * to P once key1 A^-1 B key2 == A^-1 B and the circulants A^-1, B, X commute.
   */
  lemma WordCollapses(p: Mat2, x: Mat2, xi: Mat2, k1: Mat2, k2: Mat2,
                      a: Mat2, b: Mat2, ai: Mat2, bi: Mat2, m: int)
    requires m > 1
    requires IsCirculant(x) && IsCirculant(xi) && IsCirculant(ai) && IsCirculant(b)
    requires Mul(x, xi, m) == Identity() && Mul(xi, x, m) == Identity()
    requires Mul(b, bi, m) == Identity() && Mul(ai, a, m) == Identity()
    requires Prod([k1, ai, b, k2], m) == Prod([ai, b], m)
    ensures Prod([p, xi, k1, x, ai, b, xi, k2, x, bi, a], m) == Reduce(p, m)
  {
    CirculantsCommute(ai, b, m);
    ProdPair(ai, b, m);
    // X A^-1 B X^-1 == A^-1 B
    ConjugateCirculant([p, xi, k1], x, [ai, b], xi, [k2, x, bi, a], m);
    assert [p, xi, k1, x, ai, b, xi, k2, x, bi, a] == [p, xi, k1] + [x] + [ai, b] + [xi] + [k2, x, bi, a];
    // key1 A^-1 B key2 == A^-1 B
    ReplaceAt([p, xi], [k1, ai, b, k2], [ai, b], [x, bi, a], m);
    assert [p, xi, k1] + [ai, b] + [k2, x, bi, a] == [p, xi] + [k1, ai, b, k2] + [x, bi, a];
    // X^-1 A^-1 B X == A^-1 B
    ConjugateCirculant([p], xi, [ai, b], x, [bi, a], m);
    assert [p, xi] + [ai, b] + [x, bi, a] == [p] + [xi] + [ai, b] + [x] + [bi, a];
    // B B^-1 == I, then A^-1 A == I
    CancelAt([p, ai], b, bi, [a], m);
    assert [p] + [ai, b] + [bi, a] == [p, ai] + [b, bi] + [a];
    CancelAt([p], ai, a, [], m);
    assert [p, ai] + [a] == [p] + [ai, a] + [];
    assert [p] + [] == [p];
    ProdSingle(p, m);
  }

  /**
   * Decryption recovers the plaintext (main.py:174): for keys derived from
   * circulant A, B and any accepted blinding, decrypting the encryption of P
   * gives P reduced mod m.
   */
  lemma DecryptEncryptBlock(p: Mat2, a: Mat2, b: Mat2, n: Mat2, m: int, bl: Blinding)
    requires IsCirculant(a) && IsCirculant(b) && DeriveKeys(a, b, n, m).Some?
    requires Accepted(bl, m)
    ensures var (pub, priv) := DeriveKeys(a, b, n, m).value;
      DecryptBlock(EncryptBlock(p, pub, bl), priv, MatInverse(a, m).value, MatInverse(b, m).value, m)
        == Reduce(p, m)
  {
    var (pub, priv) := DeriveKeys(a, b, n, m).value;
    var ai, bi := MatInverse(a, m).value, MatInverse(b, m).value;
    var x := Circ(bl.p, bl.q);
    var xi := MatInverse(x, m).value;
    var ui := NumInverse(bl.u, m).value;
    NumInverseIsLeast(bl.u, m);
    MatInverseIsInverse(a, m);
    MatInverseIsInverse(b, m);
    MatInverseIsInverse(x, m);
    MatInverseCirculant(a, m);
    MatInverseCirculant(x, m);
    DerivedKeyCore(a, b, n, m);
    var cb := EncryptBlock(p, pub, bl);
    var w1 := [Circ(ui, 0), xi, pub.key2, x];
    var w2 := [Circ(bl.u, 0), p, xi, pub.key1, x];
    CipherWords(p, pub, bl);
    DecryptWord(ai, b, cb.c1, w1, bi, a, m);
    ProdAppend(w2, [ai, b] + w1 + [bi, a], m);
    assert w2 + ([ai, b] + w1 + [bi, a]) ==
      [Circ(bl.u, 0), p, xi, pub.key1, x, ai, b, Circ(ui, 0), xi, pub.key2, x, bi, a];
    UnitCancels(bl.u, ui, [], [p, xi, pub.key1, x, ai, b], [xi, pub.key2, x, bi, a], m);
    assert [Circ(bl.u, 0), p, xi, pub.key1, x, ai, b, Circ(ui, 0), xi, pub.key2, x, bi, a]
        == [] + [Circ(bl.u, 0)] + [p, xi, pub.key1, x, ai, b] + [Circ(ui, 0)] + [xi, pub.key2, x, bi, a];
    assert [] + [p, xi, pub.key1, x, ai, b] + [xi, pub.key2, x, bi, a]
        == [p, xi, pub.key1, x, ai, b, xi, pub.key2, x, bi, a];
    WordCollapses(p, x, xi, pub.key1, pub.key2, a, b, ai, bi, m);
  }

  // ---------------------------------------------------------------------------
  // Lists of blocks

  /** encrypt_matrices (main.py:112-160): one ciphertext pair per plaintext block, each under the blinding its draws settle on. */
  method EncryptMatrices(mat: seq<Mat2>, pub: PublicKey, draws: seq<Draws>) returns (fin: seq<CipherBlock>)
    requires |draws| == |mat|
    requires forall i :: 0 <= i < |draws| ==> Chosen(draws[i], pub.modulus).Some?
    ensures |fin| == |mat|
    ensures forall i :: 0 <= i < |mat| ==> fin[i] == EncryptBlock(mat[i], pub, Chosen(draws[i], pub.modulus).value)
    ensures forall i :: 0 <= i < |mat| ==> Reduced(fin[i].c1, pub.modulus) && Reduced(fin[i].c2, pub.modulus)
  {
    var m := pub.modulus;
    fin := [];
    for i := 0 to |mat|
      invariant |fin| == i
      invariant forall j :: 0 <= j < i ==> fin[j] == EncryptBlock(mat[j], pub, Chosen(draws[j], m).value)
    {
      var u, uInv := DrawUnit(draws[i].units, m);
      var x, xInv := DrawMask(draws[i].masks, m);

      var c1 := Mul(Scale(uInv, xInv), pub.key2, m);
      c1 := Mul(c1, x, m);

      var c2 := Mul(Scale(u, mat[i]), xInv, m);
      c2 := Mul(c2, pub.key1, m);
      c2 := Mul(c2, x, m);

      fin := fin + [CipherBlock(c1, c2)];
    }
  }

  /** Why decrypt_matrices can fail: a private matrix has no inverse mod m, and np.dot is handed the string "error". */
  datatype DecryptError = KeyNotInvertible

  /**
   * What decrypt_matrices returns. The inverses are searched inside the loop,
   * so an empty ciphertext decrypts to the empty list whatever the key.
   */
  function Decrypt(cs: seq<CipherBlock>, priv: PrivateKey, m: int): (r: Result<seq<Mat2>, DecryptError>)
    ensures r.Failure? <==> cs != [] && (MatInverse(priv.a, m).None? || MatInverse(priv.b, m).None?)
    ensures r.Success? ==> |r.value| == |cs| && forall i :: 0 <= i < |cs| ==> Reduced(r.value[i], m)
  {
    if cs == [] then Success([])
    else
      var ai, bi := MatInverse(priv.a, m), MatInverse(priv.b, m);
      if ai.None? || bi.None? then Failure(KeyNotInvertible)
      else Success(seq(|cs|, i requires 0 <= i < |cs| => DecryptBlock(cs[i], priv, ai.value, bi.value, m)))
  }

  /** decrypt_matrices (main.py:163-191): per block, search A^-1 and B^-1 again, then form C2 (A^-1 B C1 B^-1 A). */
  method DecryptMatrices(ciphertext: seq<CipherBlock>, priv: PrivateKey, mod: int)
    returns (r: Result<seq<Mat2>, DecryptError>)
    ensures r == Decrypt(ciphertext, priv, mod)
  {
    var fin: seq<Mat2> := [];
    for i := 0 to |ciphertext|
      invariant |fin| == i
      invariant i > 0 ==> MatInverse(priv.a, mod).Some? && MatInverse(priv.b, mod).Some?
      invariant i > 0 ==> forall j :: 0 <= j < i ==>
        fin[j] == DecryptBlock(ciphertext[j], priv, MatInverse(priv.a, mod).value, MatInverse(priv.b, mod).value, mod)
    {
      var aInv := ModMatrixInverse(priv.a, mod);
      var bInv := ModMatrixInverse(priv.b, mod);
      if aInv.None? || bInv.None? {
        return Failure(KeyNotInvertible);
      }

      var d := Mul(aInv.value, priv.b, mod);
      d := Mul(d, ciphertext[i].c1, mod);
      d := Mul(d, bInv.value, mod);
      d := Mul(d, priv.a, mod);

      d := Mul(ciphertext[i].c2, d, mod);

      fin := fin + [d];
    }
    if ciphertext != [] {
      var ai, bi := MatInverse(priv.a, mod).value, MatInverse(priv.b, mod).value;
      assert fin == seq(|ciphertext|, j requires 0 <= j < |ciphertext| => DecryptBlock(ciphertext[j], priv, ai, bi, mod));
    }
    return Success(fin);
  }

  /**
   * Decryption recovers every block: decrypting the ciphertext pairs of
   * plaintext blocks ps gives ps reduced mod m, block for block.
   */
  lemma DecryptEncrypt(cs: seq<CipherBlock>, ps: seq<Mat2>, bls: seq<Blinding>, a: Mat2, b: Mat2, n: Mat2, m: int)
    requires IsCirculant(a) && IsCirculant(b) && DeriveKeys(a, b, n, m).Some?
    requires |cs| == |ps| == |bls|
    requires forall i :: 0 <= i < |bls| ==> Accepted(bls[i], m)
    requires forall i :: 0 <= i < |cs| ==> cs[i] == EncryptBlock(ps[i], DeriveKeys(a, b, n, m).value.0, bls[i])
    ensures var r := Decrypt(cs, DeriveKeys(a, b, n, m).value.1, m);
      r.Success? && |r.value| == |ps| && forall i :: 0 <= i < |ps| ==> r.value[i] == Reduce(ps[i], m)
  {
    var (pub, priv) := DeriveKeys(a, b, n, m).value;
    MatInverseIsInverse(a, m);
    forall i | 0 <= i < |ps|
      ensures DecryptBlock(cs[i], priv, MatInverse(a, m).value, MatInverse(b, m).value, m) == Reduce(ps[i], m)
    {
      DecryptEncryptBlock(ps[i], a, b, n, m, bls[i]);
    }
  }
}

=== FILE: codec.dfy ===
/**
 * Text <-> 2x2 block conversion (main.py lines 194-284). A character becomes
 * the cell value "code point minus 32", four characters fill one block row by
 * row, and a ciphertext pair [C1, C2] is written as eight characters inside a
 * '<' ... '>' frame.
 */
module Codec {
  import opened Wrappers
  import opened Matrix

  /** Why chr fails in nums_to_letters: the value plus 32 is not a character. */
  datatype CodecError = CharOutOfRange

  /** The cell value letters_to_nums gives a character: ord(c) - 32. */
  function CellOf(c: char): int { c as int - 32 }

  /** chr(v) exists: v is a Unicode scalar value (the range of Dafny's char). */
  predicate IsCharCode(v: int) {
    0 <= v < 0xD800 || 0xE000 <= v < 0x11_0000
  }

  lemma CharCodeOf(c: char)
    ensures IsCharCode(c as int) && (c as int) as char == c
  {
  }

  // ---------------------------------------------------------------------------
  // Specification functions

  /** The text right-padded with spaces to a multiple of four characters (main.py:207-208). */
  function Padded(s: string): (r: string)
    ensures |r| % 4 == 0 && |s| <= |r| < |s| + 4
    ensures r[..|s|] == s && forall i :: |s| <= i < |r| ==> r[i] == ' '
  {
    s + seq((4 - |s| % 4) % 4, _ => ' ')
  }

  /** The k-th block of four characters of s, read row by row. */
  function BlockAt(s: string, k: nat): Mat2
    requires 4 * k + 4 <= |s|
  {
    Mat2(CellOf(s[4 * k]), CellOf(s[4 * k + 1]), CellOf(s[4 * k + 2]), CellOf(s[4 * k + 3]))
  }

  /** The blocks of a text whose length is a multiple of four. */
  function Blocks(s: string): (r: seq<Mat2>)
    requires |s| % 4 == 0
    ensures |r| == |s| / 4
  {
    seq(|s| / 4, k requires 0 <= k < |s| / 4 => BlockAt(s, k))
  }

  /** The cells of a list of blocks, block by block, each row by row. */
  function Flatten(ms: seq<Mat2>): (r: seq<int>)
    ensures |r| == 4 * |ms|
  {
    seq(4 * |ms|, k requires 0 <= k < 4 * |ms| => Cells(ms[k / 4])[k % 4])
  }

  /** Cell j of block q sits at index 4 * q + j of the flattened list. */
  lemma FlattenAt(ms: seq<Mat2>, q: int, j: int)
    requires 0 <= q < |ms| && 0 <= j < 4
    ensures Flatten(ms)[4 * q + j] == Cells(ms[q])[j]
  {
    assert (4 * q + j) / 4 == q && (4 * q + j) % 4 == j;
  }

  /** The text of a list of cell values, or the error chr raises on the first value that is out of range. */
  function Chars(cells: seq<int>): (r: Result<string, CodecError>)
    ensures r.Success? <==> forall i :: 0 <= i < |cells| ==> IsCharCode(cells[i] + 32)
    ensures r.Success? ==> |r.value| == |cells| && forall i :: 0 <= i < |cells| ==> r.value[i] as int == cells[i] + 32
  {
    if forall i :: 0 <= i < |cells| ==> IsCharCode(cells[i] + 32) then
      Success(seq(|cells|, i requires 0 <= i < |cells| => (cells[i] + 32) as char))
    else Failure(CharOutOfRange)
  }

  /** The two matrices of each ciphertext pair, in order: C1, C2, C1, C2, ... */
  function Halves(cs: seq<CipherBlock>): (r: seq<Mat2>)
    ensures |r| == 2 * |cs|
  {
    seq(2 * |cs|, k requires 0 <= k < 2 * |cs| => if k % 2 == 0 then cs[k / 2].c1 else cs[k / 2].c2)
  }

  /** Entries 2 i and 2 i + 1 of the halves are C1 and C2 of pair i. */
  lemma HalvesAt(cs: seq<CipherBlock>, i: int)
    requires 0 <= i < |cs|
    ensures Halves(cs)[2 * i] == cs[i].c1 && Halves(cs)[2 * i + 1] == cs[i].c2
  {
    assert (2 * i) / 2 == i && (2 * i) % 2 == 0;
    assert (2 * i + 1) / 2 == i && (2 * i + 1) % 2 == 1;
  }

  /** The framed ciphertext text: '<', eight characters per pair, '>'. */
  function FramedText(cs: seq<CipherBlock>): (r: Result<string, CodecError>)
    ensures r.Success? <==> Chars(Flatten(Halves(cs))).Success?
    ensures r.Success? ==> |r.value| == 8 * |cs| + 2 && r.value[0] == '<' && r.value[|r.value| - 1] == '>'
  {
    match Chars(Flatten(Halves(cs)))
    case Success(t) => Success(['<'] + t + ['>'])
    case Failure(e) => Failure(e)
  }

  /** The ciphertext pairs read from s, eight characters each; a trailing remainder of fewer than eight is dropped. */
  function Pairs(s: string): (r: seq<CipherBlock>)
    ensures |r| == |s| / 8
  {
    seq(|s| / 8, i requires 0 <= i < |s| / 8 => CipherBlock(BlockAt(s, 2 * i), BlockAt(s, 2 * i + 1)))
  }

  // ---------------------------------------------------------------------------
  // The four conversions

  /** letters_to_nums (main.py:194-218): pad with spaces, then cut into blocks of four. */
  method LettersToNums(letters: string) returns (fin: seq<Mat2>)
    ensures fin == Blocks(Padded(letters))
    ensures |fin| == (|letters| + 3) / 4
  {
    var t := letters;
    while |t| % 4 != 0
      invariant |letters| <= |t| <= |Padded(letters)| && t == Padded(letters)[..|t|]
      decreases |Padded(letters)| - |t|
    {
      assert Padded(letters)[..|t| + 1] == Padded(letters)[..|t|] + [Padded(letters)[|t|]];
      t := t + " ";
    }
    assert |t| == |Padded(letters)|;
    fin := [];
    for i := 0 to |t| / 4
      invariant |fin| == i
      invariant forall j :: 0 <= j < i ==> fin[j] == BlockAt(t, j)
    {
      var start := i * 4;
      fin := fin + [Mat2(t[start] as int - 32, t[start + 1] as int - 32,
                         t[start + 2] as int - 32, t[start + 3] as int - 32)];
    }
  }

  /** nums_to_letters (main.py:221-238): chr(v + 32) of every cell, failing on the first that is out of range. */
  method NumsToLetters(arrs: seq<Mat2>) returns (r: Result<string, CodecError>)
    ensures r == Chars(Flatten(arrs))
  {
    ghost var cells := Flatten(arrs);
    var finStr := "";
    for i := 0 to |arrs|
      invariant |finStr| == 4 * i
      invariant forall k :: 0 <= k < 4 * i ==> IsCharCode(cells[k] + 32) && finStr[k] as int == cells[k] + 32
    {
      for j := 0 to 4
        invariant |finStr| == 4 * i + j
        invariant forall k :: 0 <= k < 4 * i + j ==> IsCharCode(cells[k] + 32) && finStr[k] as int == cells[k] + 32
      {
        var v := Cells(arrs[i])[j] + 32;
        FlattenAt(arrs, i, j);
        if !IsCharCode(v) {
          return Failure(CharOutOfRange);
        }
        finStr := finStr + [v as char];
      }
    }
    CharsOfCells(finStr, cells);
    r := Success(finStr);
  }

  /** A string holding chr(v + 32) of every cell v is the text of those cells. */
  lemma CharsOfCells(f: string, cells: seq<int>)
    requires |f| == |cells|
    requires forall k :: 0 <= k < |cells| ==> IsCharCode(cells[k] + 32) && f[k] as int == cells[k] + 32
    ensures Chars(cells) == Success(f)
  {
    var t := Chars(cells).value;
    forall k | 0 <= k < |f| ensures f[k] == t[k] {
      CharCodeOf(f[k]);
      CharCodeOf(t[k]);
    }
    assert f == t;
  }

  /** A string of '<', the characters of the cells of arrs, and '>' is the framed text of arrs. */
  lemma FramedOfCells(f: string, arrs: seq<CipherBlock>)
    requires var cells := Flatten(Halves(arrs));
      |f| == |cells| + 2 && f[0] == '<' && f[|f| - 1] == '>' &&
      forall k :: 0 <= k < |cells| ==> IsCharCode(cells[k] + 32) && f[k + 1] as int == cells[k] + 32
    ensures FramedText(arrs) == Success(f)
  {
    var cells := Flatten(Halves(arrs));
    var t := f[1..|f| - 1];
    CharsOfCells(t, cells);
    assert f == ['<'] + t + ['>'];
  }

  /** nums_to_letters_enc (main.py:241-261): '<', then C1's cells and C2's cells of every pair, then '>'. */
  method NumsToLettersEnc(arrs: seq<CipherBlock>) returns (r: Result<string, CodecError>)
    ensures r == FramedText(arrs)
  {
    ghost var cells := SomePairCells(arrs);
    var finStr := "<";
    for i := 0 to |arrs|
      invariant |finStr| == 8 * i + 1 && finStr[0] == '<'
      invariant forall k :: 0 <= k < 8 * i ==> IsCharCode(cells[k] + 32) && finStr[k + 1] as int == cells[k] + 32
    {
      for ii := 0 to 2
        invariant |finStr| == 8 * i + 4 * ii + 1 && finStr[0] == '<'
        invariant forall k :: 0 <= k < 8 * i + 4 * ii ==> IsCharCode(cells[k] + 32) && finStr[k + 1] as int == cells[k] + 32
      {
        var half := if ii == 0 then arrs[i].c1 else arrs[i].c2;
        for iii := 0 to 4
          invariant |finStr| == 8 * i + 4 * ii + iii + 1 && finStr[0] == '<'
          invariant forall k :: 0 <= k < 8 * i + 4 * ii + iii ==> IsCharCode(cells[k] + 32) && finStr[k + 1] as int == cells[k] + 32
        {
          var v := Cells(half)[iii] + 32;
          assert v == cells[8 * i + 4 * ii + iii] + 32;
          if !IsCharCode(v) {
            PairCellsFail(arrs, cells, 8 * i + 4 * ii + iii);
            return Failure(CharOutOfRange);
          }
          finStr := finStr + [v as char];
        }
      }
    }
    finStr := finStr + ">";
    PairCellsFramed(arrs, cells, finStr);
    r := Success(finStr);
  }

  /** cells lists, pair by pair, the four cells of C1 and then the four cells of C2. */
  ghost predicate PairCells(arrs: seq<CipherBlock>, cells: seq<int>) {
    |cells| == 8 * |arrs| &&
    forall i, j :: 0 <= i < |arrs| && 0 <= j < 4 ==>
      cells[8 * i + j] == Cells(arrs[i].c1)[j] && cells[8 * i + 4 + j] == Cells(arrs[i].c2)[j]
  }

  /** Cell j of C1 and of C2 of pair i sit at 8 i + j and 8 i + 4 + j of the flattened halves. */
  lemma FlattenHalvesAt(arrs: seq<CipherBlock>, i: int, j: int)
    requires 0 <= i < |arrs| && 0 <= j < 4
    ensures Flatten(Halves(arrs))[8 * i + j] == Cells(arrs[i].c1)[j]
    ensures Flatten(Halves(arrs))[8 * i + 4 + j] == Cells(arrs[i].c2)[j]
  {
    HalvesAt(arrs, i);
    FlattenAt(Halves(arrs), 2 * i, j);
    FlattenAt(Halves(arrs), 2 * i + 1, j);
  }

  /** The flattened halves are laid out pair by pair. */
  lemma FlattenPairCells(arrs: seq<CipherBlock>)
    ensures PairCells(arrs, Flatten(Halves(arrs)))
  {
    forall i, j | 0 <= i < |arrs| && 0 <= j < 4
      ensures Flatten(Halves(arrs))[8 * i + j] == Cells(arrs[i].c1)[j]
      ensures Flatten(Halves(arrs))[8 * i + 4 + j] == Cells(arrs[i].c2)[j]
    {
      FlattenHalvesAt(arrs, i, j);
    }
  }

  /** Some cells are laid out pair by pair: the flattened halves. */
  lemma SomePairCells(arrs: seq<CipherBlock>) returns (cells: seq<int>)
    ensures PairCells(arrs, cells)
  {
    cells := Flatten(Halves(arrs));
    FlattenPairCells(arrs);
  }

  /** The pair-by-pair layout determines the cells. */
  lemma PairCellsUnique(arrs: seq<CipherBlock>, cells: seq<int>, other: seq<int>)
    requires PairCells(arrs, cells) && PairCells(arrs, other)
    ensures cells == other
  {
    forall k | 0 <= k < |cells| ensures cells[k] == other[k] {
      var i, j := k / 8, k % 8;
      if j < 4 {
        assert k == 8 * i + j;
        assert cells[8 * i + j] == Cells(arrs[i].c1)[j] == other[8 * i + j];
      } else {
        assert k == 8 * i + 4 + (j - 4);
        assert cells[8 * i + 4 + (j - 4)] == Cells(arrs[i].c2)[j - 4] == other[8 * i + 4 + (j - 4)];
      }
    }
  }

  /** Cells laid out pair by pair are the flattened halves. */
  lemma PairCellsFlatten(arrs: seq<CipherBlock>, cells: seq<int>)
    requires PairCells(arrs, cells)
    ensures cells == Flatten(Halves(arrs))
  {
    FlattenPairCells(arrs);
    PairCellsUnique(arrs, cells, Flatten(Halves(arrs)));
  }

  /** A cell without a character, at any place of the pair-by-pair layout, makes the framed text fail. */
  lemma PairCellsFail(arrs: seq<CipherBlock>, cells: seq<int>, k: int)
    requires PairCells(arrs, cells) && 0 <= k < |cells| && !IsCharCode(cells[k] + 32)
    ensures FramedText(arrs) == Failure(CharOutOfRange)
  {
    PairCellsFlatten(arrs, cells);
  }

  /** '<', the characters of cells laid out pair by pair, and '>' make the framed text. */
  lemma PairCellsFramed(arrs: seq<CipherBlock>, cells: seq<int>, f: string)
    requires PairCells(arrs, cells)
    requires |f| == |cells| + 2 && f[0] == '<' && f[|f| - 1] == '>'
    requires forall k :: 0 <= k < |cells| ==> IsCharCode(cells[k] + 32) && f[k + 1] as int == cells[k] + 32
    ensures FramedText(arrs) == Success(f)
  {
    PairCellsFlatten(arrs, cells);
    FramedOfCells(f, arrs);
  }

  /** letters_to_nums_enc (main.py:264-284): read |s| / 8 pairs from index 0, four cells for C1, four for C2. */
  method LettersToNumsEnc(s: string) returns (fin: seq<CipherBlock>)
    ensures fin == Pairs(s)
  {
    fin := [];
    for i := 0 to |s| / 8
      invariant |fin| == i
      invariant forall j :: 0 <= j < i ==> fin[j] == CipherBlock(BlockAt(s, 2 * j), BlockAt(s, 2 * j + 1))
    {
      var c1 := Mat2(s[i * 8] as int - 32, s[i * 8 + 1] as int - 32, s[i * 8 + 2] as int - 32, s[i * 8 + 3] as int - 32);
      var c2 := Mat2(s[i * 8 + 4] as int - 32, s[i * 8 + 5] as int - 32, s[i * 8 + 6] as int - 32, s[i * 8 + 7] as int - 32);
      fin := fin + [CipherBlock(c1, c2)];
    }
  }

  // ---------------------------------------------------------------------------
  // Round trips

  /**
   * letters_to_nums: the cells of the blocks are ord(c) - 32 of the text in
   * row-major order, and the padding spaces become 0.
   */
  lemma BlocksOfPadded(s: string)
    ensures var cells := Flatten(Blocks(Padded(s)));
      |cells| == |Padded(s)| &&
      forall k :: 0 <= k < |cells| ==> cells[k] == if k < |s| then CellOf(s[k]) else 0
  {
    var t := Padded(s);
    forall k | 0 <= k < |t| ensures Flatten(Blocks(t))[k] == CellOf(t[k]) {
      FlattenAt(Blocks(t), k / 4, k % 4);
      assert 4 * (k / 4) + k % 4 == k;
    }
    forall k | 0 <= k < |t| ensures t[k] == if k < |s| then s[k] else ' ' {
      if k < |s| { assert t[..|s|][k] == t[k]; }
    }
  }

  /** nums_to_letters(letters_to_nums(s)) is s right-padded with spaces to a multiple of four, for every text s. */
  lemma TextRoundTrip(s: string)
    ensures Chars(Flatten(Blocks(Padded(s)))) == Success(Padded(s))
  {
    var t := Padded(s);
    var cells := Flatten(Blocks(t));
    BlocksOfPadded(s);
    forall k | 0 <= k < |cells| ensures IsCharCode(cells[k] + 32) && t[k] as int == cells[k] + 32 {
      CharCodeOf(t[k]);
      if k < |s| { assert t[..|s|][k] == t[k]; }
    }
    CharsOfCells(t, cells);
  }

  /** Character k of the text of some cells is chr(cells[k] + 32). */
  lemma CharsAt(cells: seq<int>, t: string, k: int)
    requires Chars(cells) == Success(t) && 0 <= k < |cells|
    ensures k < |t| && CellOf(t[k]) == cells[k]
  {
  }

  /** Block q of the text of some cells is ms[q] when those cells hold the cells of ms[q] at 4 q .. 4 q + 3. */
  lemma BlockAtChars(cells: seq<int>, ms: seq<Mat2>, t: string, q: int)
    requires Chars(cells) == Success(t) && |cells| == 4 * |ms| && 0 <= q < |ms|
    requires forall j :: 0 <= j < 4 ==> cells[4 * q + j] == Cells(ms[q])[j]
    ensures 4 * q + 4 <= |t| && BlockAt(t, q) == ms[q]
  {
    assert Cells(ms[q]) == [ms[q].a, ms[q].b, ms[q].c, ms[q].d];
    assert cells[4 * q] == Cells(ms[q])[0] && cells[4 * q + 1] == Cells(ms[q])[1];
    assert cells[4 * q + 2] == Cells(ms[q])[2] && cells[4 * q + 3] == Cells(ms[q])[3];
    CharsAt(cells, t, 4 * q);
    CharsAt(cells, t, 4 * q + 1);
    CharsAt(cells, t, 4 * q + 2);
    CharsAt(cells, t, 4 * q + 3);
  }

  /** letters_to_nums(nums_to_letters(ms)) == ms: the text has 4 |ms| characters, so no padding is added. */
  lemma BlocksRoundTrip(ms: seq<Mat2>, t: string)
    requires Chars(Flatten(ms)) == Success(t)
    ensures |t| % 4 == 0 && Padded(t) == t && Blocks(t) == ms
  {
    assert Padded(t) == t + [];
    var cells := Flatten(ms);
    forall q | 0 <= q < |ms| ensures Blocks(t)[q] == ms[q] {
      forall j | 0 <= j < 4 ensures cells[4 * q + j] == Cells(ms[q])[j] {
        FlattenAt(ms, q, j);
      }
      BlockAtChars(cells, ms, t, q);
    }
  }

  /** Reading pairs from a text whose blocks are the halves of cs gives back cs. */
  lemma PairsOfBlocks(cs: seq<CipherBlock>, t: string)
    requires |t| % 4 == 0 && Blocks(t) == Halves(cs)
    ensures Pairs(t) == cs
  {
    forall i | 0 <= i < |cs| ensures Pairs(t)[i] == cs[i] {
      HalvesAt(cs, i);
      assert Blocks(t)[2 * i] == BlockAt(t, 2 * i) && Blocks(t)[2 * i + 1] == BlockAt(t, 2 * i + 1);
    }
  }

  /** letters_to_nums_enc(nums_to_letters(halves)) == cs, on the unframed text. */
  lemma PairsOfChars(cs: seq<CipherBlock>, t: string)
    requires Chars(Flatten(Halves(cs))) == Success(t)
    ensures Pairs(t) == cs
  {
    BlocksRoundTrip(Halves(cs), t);
    PairsOfBlocks(cs, t);
  }

  /**
   * letters_to_nums_enc recovers the pairs from the text between the frame
   * characters; it does not strip the frame itself.
   */
  lemma PairsRoundTrip(cs: seq<CipherBlock>)
    requires FramedText(cs).Success?
    ensures var f := FramedText(cs).value;
      Pairs(f[1..|f| - 1]) == cs
  {
    var t := Chars(Flatten(Halves(cs))).value;
    assert FramedText(cs).value[1..8 * |cs| + 1] == t;
    PairsOfChars(cs, t);
  }

  /** Matrix q of the pairs read from s is block q of s. */
  lemma HalvesOfPairs(s: string, q: int)
    requires 0 <= q < 2 * (|s| / 8)
    ensures 4 * q + 4 <= |s| && Halves(Pairs(s))[q] == BlockAt(s, q)
  {
    var i := q / 2;
    assert Pairs(s)[i] == CipherBlock(BlockAt(s, 2 * i), BlockAt(s, 2 * i + 1));
    HalvesAt(Pairs(s), i);
  }

  /**
   * nums_to_letters_enc(letters_to_nums_enc(s)) frames the first 8 * (|s| / 8)
   * characters of s, for every text s.
   */
  lemma FramedRoundTrip(s: string)
    ensures FramedText(Pairs(s)) == Success(['<'] + s[..8 * (|s| / 8)] + ['>'])
  {
    var n := 8 * (|s| / 8);
    var cells := Flatten(Halves(Pairs(s)));
    var t := s[..n];
    forall k | 0 <= k < n ensures IsCharCode(cells[k] + 32) && t[k] as int == cells[k] + 32 {
      FlattenAt(Halves(Pairs(s)), k / 4, k % 4);
      HalvesOfPairs(s, k / 4);
      assert 4 * (k / 4) + k % 4 == k;
      CharCodeOf(s[k]);
    }
    CharsOfCells(t, cells);
  }

  /** Cells reduced modulo m <= 0xD7E0 always have a character, so the framed text of such pairs exists. */
  lemma FramedTextOfReduced(cs: seq<CipherBlock>, m: int)
    requires 0 < m <= 0xD7E0
    requires forall i :: 0 <= i < |cs| ==> Reduced(cs[i].c1, m) && Reduced(cs[i].c2, m)
    ensures FramedText(cs).Success?
  {
    var hs := Halves(cs);
    forall q | 0 <= q < |hs| ensures Reduced(hs[q], m) {
      HalvesAt(cs, q / 2);
    }
    forall k | 0 <= k < |Flatten(hs)| ensures IsCharCode(Flatten(hs)[k] + 32) {
      FlattenAt(hs, k / 4, k % 4);
      assert 4 * (k / 4) + k % 4 == k;
      assert Reduced(hs[k / 4], m);
    }
  }
}

=== FILE: inverse.dfy ===
/**
 * The two exhaustive searches for modular inverses, mod_num_inverse and
 * mod_matrix_inverse (main.py lines 18-64). Each is a method whose loops mirror
 * the source, proved equal to a recursive reference definition, and the lemmas
 * below say what that definition means.
 */
module Inverse {
  import opened Wrappers
  import opened Matrix

  // ---------------------------------------------------------------------------
  // mod_num_inverse

  /** i is a multiplicative inverse of num modulo mod, found in the searched range [0, mod). */
  predicate IsNumInverse(num: int, mod: int, i: int) {
    0 <= i < mod && (num * i) % mod == 1
  }

  /** The first i in [k, mod) with (num * i) % mod == 1, scanning upward. */
  function FirstInverseFrom(num: int, mod: int, k: nat): Option<int>
    decreases mod - k
  {
    if k >= mod then None
    else if (num * k) % mod == 1 then Some(k)
    else FirstInverseFrom(num, mod, k + 1)
  }

  /** What mod_num_inverse returns: the first inverse in [0, mod), or None for "error". */
  function NumInverse(num: int, mod: int): Option<int> {
    FirstInverseFrom(num, mod, 0)
  }

  lemma {:induction false} FirstInverseFromMeaning(num: int, mod: int, k: nat)
    ensures FirstInverseFrom(num, mod, k).None? <==>
              forall j :: k <= j ==> !IsNumInverse(num, mod, j)
    ensures FirstInverseFrom(num, mod, k).Some? ==>
              var i := FirstInverseFrom(num, mod, k).value;
              k <= i && IsNumInverse(num, mod, i) &&
              forall j :: k <= j < i ==> !IsNumInverse(num, mod, j)
    decreases mod - k
  {
    if k < mod {
      if (num * k) % mod == 1 {
        assert IsNumInverse(num, mod, k);
      } else {
        FirstInverseFromMeaning(num, mod, k + 1);
        assert !IsNumInverse(num, mod, k);
        assert FirstInverseFrom(num, mod, k) == FirstInverseFrom(num, mod, k + 1);
      }
    } else {
      forall j | k <= j ensures !IsNumInverse(num, mod, j) {
      }
    }
  }

  /**
   * mod_num_inverse returns the least inverse of num in [0, mod), and "error"
   * exactly when [0, mod) holds no inverse (in particular whenever mod <= 1).
   */
  lemma NumInverseIsLeast(num: int, mod: int)
    ensures NumInverse(num, mod).None? <==> forall j :: !IsNumInverse(num, mod, j)
    ensures NumInverse(num, mod).Some? ==>
              IsNumInverse(num, mod, NumInverse(num, mod).value) &&
              forall j :: 0 <= j < NumInverse(num, mod).value ==> !IsNumInverse(num, mod, j)
    ensures mod <= 1 ==> NumInverse(num, mod).None?
  {
    FirstInverseFromMeaning(num, mod, 0);
    if mod == 1 {
      forall j ensures !IsNumInverse(num, mod, j) {
        if 0 <= j < mod {
          assert (num * j) % 1 == 0;
        }
      }
    }
  }

  /** If d > 1 divides both num and mod, no j makes num * j one more than a multiple of mod. */
  lemma SharedFactorNoSolution(num: int, mod: int, d: int, j: int)
    requires d > 1 && num % d == 0 && mod % d == 0 && 0 < mod
    ensures (num * j) % mod != 1
  {
    if (num * j) % mod == 1 {
      var q := (num * j) / mod;
      var a, b := num / d, mod / d;
      assert num * j == mod * q + 1;
      assert num == d * a && mod == d * b;
      assert num * j == d * (a * j) && mod * q == d * (b * q);
      ModUnique(d * (a * j), a * j, 0, d);
      ModUnique(d * (b * q) + 1, b * q, 1, d);
      assert false;
    }
  }

  /** A number sharing a factor d > 1 with the modulus has no inverse: mod_num_inverse(5, 10) is "error". */
  lemma NumInverseSharedFactor(num: int, mod: int, d: int)
    requires d > 1 && num % d == 0 && mod % d == 0
    ensures NumInverse(num, mod).None?
  {
    NumInverseIsLeast(num, mod);
    forall j | IsNumInverse(num, mod, j) ensures false {
      SharedFactorNoSolution(num, mod, d, j);
    }
  }

  lemma NumInverseExample()
    ensures NumInverse(5, 10) == None
  {
    NumInverseSharedFactor(5, 10, 5);
  }

  /** mod_num_inverse (main.py:49-64): scan [0, mod) and return the first inverse found. */
  method ModNumInverse(num: int, mod: int) returns (r: Option<int>)
    ensures r == NumInverse(num, mod)
    ensures r.Some? ==> IsNumInverse(num, mod, r.value)
    ensures r.None? <==> forall j :: !IsNumInverse(num, mod, j)
  {
    NumInverseIsLeast(num, mod);
    var i := 0;
    while i < mod
      invariant 0 <= i
      invariant NumInverse(num, mod) == FirstInverseFrom(num, mod, i)
    {
      if (num * i) % mod == 1 {
        return Some(i);
      }
      i := i + 1;
    }
    return None;
  }

  // ---------------------------------------------------------------------------
  // mod_matrix_inverse

  /** Column (i, ii) solves mat * (i, ii) == (t0, t1) modulo m: the tests at main.py:37 and main.py:40. */
  predicate Solves(mat: Mat2, m: int, i: int, ii: int, t0: int, t1: int)
    requires m > 0
  {
    (i * mat.a + ii * mat.b) % m == t0 && (i * mat.c + ii * mat.d) % m == t1
  }

  /** Position (j, jj) comes before position (i, ii) in the row-major order of the search. */
  predicate Before(j: int, jj: int, i: int, ii: int) {
    j < i || (j == i && jj < ii)
  }

  /** A position of the search over [0, m) x [0, m). */
  predicate InGrid(j: int, jj: int, m: int) {
    0 <= j < m && 0 <= jj < m
  }

  /**
   * The last column that solves mat * col == (t0, t1) among the positions
   * before (i, ii): the value the overwritten variable holds at that point.
   */
  function LastSolution(mat: Mat2, m: nat, t0: int, t1: int, i: nat, ii: nat): Option<(int, int)>
    requires ii <= m
    decreases i, ii
  {
    if ii == 0 then
      if i == 0 then None else LastSolution(mat, m, t0, t1, i - 1, m)
    else if Solves(mat, m, i, ii - 1, t0, t1) then Some((i, ii - 1))
    else LastSolution(mat, m, t0, t1, i, ii - 1)
  }

  /** One more step of the inner loop: the position (i, ii) becomes the last solution if it solves the system. */
  lemma LastSolutionStep(mat: Mat2, m: nat, t0: int, t1: int, i: nat, ii: nat, top: int, bottom: int)
    requires ii < m && top == (i * mat.a + ii * mat.b) % m && bottom == (i * mat.c + ii * mat.d) % m
    ensures LastSolution(mat, m, t0, t1, i, ii + 1) ==
      if top == t0 && bottom == t1 then Some((i, ii)) else LastSolution(mat, m, t0, t1, i, ii)
  {
  }

  /** What mod_matrix_inverse returns: the two last solutions as columns, or None for "error". */
  function MatInverse(mat: Mat2, mod: int): Option<Mat2> {
    if mod <= 0 then None
    else
      var left := LastSolution(mat, mod, 1, 0, mod, 0);
      var right := LastSolution(mat, mod, 0, 1, mod, 0);
      if left.Some? && right.Some? then
        Some(Mat2(left.value.0, right.value.0, left.value.1, right.value.1))
      else None
  }

  lemma {:induction false} LastSolutionMeaning(mat: Mat2, m: nat, t0: int, t1: int, i: nat, ii: nat)
    requires ii <= m && (i < m || (i == m && ii == 0))
    ensures LastSolution(mat, m, t0, t1, i, ii).None? <==>
              forall j, jj :: InGrid(j, jj, m) && Before(j, jj, i, ii) ==> !Solves(mat, m, j, jj, t0, t1)
    ensures LastSolution(mat, m, t0, t1, i, ii).Some? ==>
              var (k, kk) := LastSolution(mat, m, t0, t1, i, ii).value;
              InGrid(k, kk, m) && Before(k, kk, i, ii) && Solves(mat, m, k, kk, t0, t1) &&
              forall j, jj :: InGrid(j, jj, m) && Before(k, kk, j, jj) && Before(j, jj, i, ii) ==>
                !Solves(mat, m, j, jj, t0, t1)
    decreases i, ii
  {
    if ii == 0 {
      if i > 0 {
        LastSolutionMeaning(mat, m, t0, t1, i - 1, m);
      }
    } else if !Solves(mat, m, i, ii - 1, t0, t1) {
      LastSolutionMeaning(mat, m, t0, t1, i, ii - 1);
    }
  }

  /**
   * When mod_matrix_inverse returns a matrix, its cells lie in [0, mod), its
   * first column solves mat * col == (1, 0), its second mat * col == (0, 1), so
   * mat * result == I; and by RightInverseIsLeftInverse also result * mat == I.
   */
  lemma MatInverseIsInverse(mat: Mat2, mod: int)
    requires MatInverse(mat, mod).Some?
    ensures mod > 1
    ensures var inv := MatInverse(mat, mod).value;
      Reduced(inv, mod) &&
      Solves(mat, mod, inv.a, inv.c, 1, 0) && Solves(mat, mod, inv.b, inv.d, 0, 1) &&
      Mul(mat, inv, mod) == Identity() && Mul(inv, mat, mod) == Identity()
  {
    LastSolutionMeaning(mat, mod, 1, 0, mod, 0);
    LastSolutionMeaning(mat, mod, 0, 1, mod, 0);
    var inv := MatInverse(mat, mod).value;
    assert Solves(mat, mod, inv.a, inv.c, 1, 0);
    assert mod > 1;
    assert Mul(mat, inv, mod) == Identity();
    RightInverseIsLeftInverse(mat, inv, mod);
  }

  /** mod_matrix_inverse returns "error" exactly when one of the two column systems has no solution in [0, mod)^2. */
  lemma MatInverseNoneIff(mat: Mat2, mod: int)
    ensures MatInverse(mat, mod).None? <==>
      (forall j, jj :: InGrid(j, jj, mod) ==> !Solves(mat, mod, j, jj, 1, 0)) ||
      (forall j, jj :: InGrid(j, jj, mod) ==> !Solves(mat, mod, j, jj, 0, 1))
  {
    if mod > 0 {
      LastSolutionMeaning(mat, mod, 1, 0, mod, 0);
      LastSolutionMeaning(mat, mod, 0, 1, mod, 0);
    }
  }

  /** Each column of the result is the LAST solution in row-major (i, ii) order, since a later hit overwrites an earlier one. */
  lemma MatInverseLastWins(mat: Mat2, mod: int)
    requires MatInverse(mat, mod).Some?
    ensures var inv := MatInverse(mat, mod).value;
      (forall j, jj :: InGrid(j, jj, mod) && Before(inv.a, inv.c, j, jj) ==> !Solves(mat, mod, j, jj, 1, 0)) &&
      (forall j, jj :: InGrid(j, jj, mod) && Before(inv.b, inv.d, j, jj) ==> !Solves(mat, mod, j, jj, 0, 1))
  {
    LastSolutionMeaning(mat, mod, 1, 0, mod, 0);
    LastSolutionMeaning(mat, mod, 0, 1, mod, 0);
  }

  /**
   * The right inverse is unique once it exists, so the last-wins tie-break never
   * shows: when the search succeeds, each column system has exactly one solution.
   */
  lemma MatInverseUnique(mat: Mat2, mod: int, y: Mat2)
    requires MatInverse(mat, mod).Some?
    requires Reduced(y, mod) && Mul(mat, y, mod) == Identity()
    ensures y == MatInverse(mat, mod).value
  {
    var inv := MatInverse(mat, mod).value;
    MatInverseIsInverse(mat, mod);
    calc {
      y;
      { ReduceReduced(y, mod); MulIdentity(y, mod); }
      Mul(Identity(), y, mod);
      Mul(Mul(inv, mat, mod), y, mod);
      { MulAssoc(inv, mat, y, mod); }
      Mul(inv, Mul(mat, y, mod), mod);
      Mul(inv, Identity(), mod);
      { MulIdentity(inv, mod); ReduceReduced(inv, mod); }
      inv;
    }
  }

  /** The columns of a right inverse solve the two column systems the search tests. */
  lemma ColumnsOfRightInverse(mat: Mat2, mod: int, y: Mat2)
    requires mod > 0 && Mul(mat, y, mod) == Identity()
    ensures Solves(mat, mod, y.a, y.c, 1, 0) && Solves(mat, mod, y.b, y.d, 0, 1)
  {
    var t := Dot(mat, y);
    assert t.a % mod == 1 && t.c % mod == 0 && t.b % mod == 0 && t.d % mod == 1;
    assert y.a * mat.a + y.c * mat.b == t.a && y.a * mat.c + y.c * mat.d == t.c;
    assert y.b * mat.a + y.d * mat.b == t.b && y.b * mat.c + y.d * mat.d == t.d;
  }

  /** Conversely, the search succeeds on every matrix with an inverse whose cells lie in [0, mod), and returns that inverse. */
  lemma MatInverseFinds(mat: Mat2, mod: int, y: Mat2)
    requires mod > 0 && Reduced(y, mod) && Mul(mat, y, mod) == Identity()
    ensures MatInverse(mat, mod) == Some(y)
  {
    ColumnsOfRightInverse(mat, mod, y);
    MatInverseNoneIff(mat, mod);
    MatInverseUnique(mat, mod, y);
  }

  /** The inverse found for a matrix of the form [[p, q], [q, p]] has that form too. */
  lemma MatInverseCirculant(mat: Mat2, mod: int)
    requires IsCirculant(mat) && MatInverse(mat, mod).Some?
    ensures IsCirculant(MatInverse(mat, mod).value)
  {
    var inv := MatInverse(mat, mod).value;
    MatInverseIsInverse(mat, mod);
    var c := Circ(inv.a, inv.c);
    assert Mul(mat, c, mod) == Identity() by {
      assert Dot(mat, c).a == Dot(mat, inv).a && Dot(mat, c).c == Dot(mat, inv).c;
      assert Dot(mat, c).b == Dot(mat, inv).c && Dot(mat, c).d == Dot(mat, inv).a;
    }
    MatInverseUnique(mat, mod, c);
  }

  /** mod_matrix_inverse (main.py:18-46): two nested scans of [0, mod), overwriting each column on every hit. */
  method ModMatrixInverse(mat: Mat2, mod: int) returns (r: Option<Mat2>)
    ensures r == MatInverse(mat, mod)
    ensures r.Some? ==> Reduced(r.value, mod) && Mul(mat, r.value, mod) == Identity()
  {
    var left: Option<(int, int)> := None;
    var right: Option<(int, int)> := None;
    var i := 0;
    while i < mod
      invariant 0 <= i && (mod > 0 ==> i <= mod)
      invariant mod <= 0 ==> left == None && right == None
      invariant mod > 0 ==> left == LastSolution(mat, mod, 1, 0, i, 0)
      invariant mod > 0 ==> right == LastSolution(mat, mod, 0, 1, i, 0)
    {
      var ii := 0;
      while ii < mod
        invariant 0 <= ii <= mod
        invariant left == LastSolution(mat, mod, 1, 0, i, ii)
        invariant right == LastSolution(mat, mod, 0, 1, i, ii)
      {
        var top, bottom := (i * mat.a + ii * mat.b) % mod, (i * mat.c + ii * mat.d) % mod;
        LastSolutionStep(mat, mod, 1, 0, i, ii, top, bottom);
        LastSolutionStep(mat, mod, 0, 1, i, ii, top, bottom);
        if top == 1 && bottom == 0 {
          left := Some((i, ii));
        }
        if top == 0 && bottom == 1 {
          right := Some((i, ii));
        }
        ii := ii + 1;
      }
      i := i + 1;
    }
    if left.Some? && right.Some? {
      r := Some(Mat2(left.value.0, right.value.0, left.value.1, right.value.1));
    } else {
      r := None;
    }
    if r.Some? {
      MatInverseIsInverse(mat, mod);
    }
  }
}

=== FILE: keys.dfy ===
/**
 * Key generation, get_keys (main.py lines 67-109). The private key is the pair
 * of circulant matrices A, B; the public key is the modulus 95 and two products
 * key1, key2 that hide A, B behind a third invertible matrix N.
 */
module Keys {
  import opened Wrappers
  import opened Matrix
  import opened Inverse

  /** The modulus get_keys fixes: the 95 printable ASCII characters. */
  const Modulus: int := 95

  /** The private matrices A and B and the mixing matrix N of main.py:77-79. */
  const PrivA: Mat2 := Circ(14, 13)
  const PrivB: Mat2 := Circ(12, 11)
  const Mixer: Mat2 := Mat2(14, 15, 43, 58)

  /** The public key [mod, key1, key2]. */
  datatype PublicKey = PublicKey(modulus: int, key1: Mat2, key2: Mat2)

  /** The private key [A, B]. */
  datatype PrivateKey = PrivateKey(a: Mat2, b: Mat2)

  /** The factors of key1 = A^-1 A^-1 B^-1 N A A B, multiplied left to right. */
  function Key1Word(a: Mat2, b: Mat2, n: Mat2, ai: Mat2, bi: Mat2): seq<Mat2> {
    [ai, ai, bi, n, a, a, b]
  }

  /** The factors of key2 = A^-1 B^-1 B^-1 N^-1 A B B, multiplied left to right. */
  function Key2Word(a: Mat2, b: Mat2, ai: Mat2, bi: Mat2, ni: Mat2): seq<Mat2> {
    [ai, bi, bi, ni, a, b, b]
  }

  /**
   * The key pair get_keys builds from A, B and N modulo m, or None where one of
   * the three inverse searches reports "error" (the source would then fail in
   * np.dot on the string).
   */
  function DeriveKeys(a: Mat2, b: Mat2, n: Mat2, m: int): Option<(PublicKey, PrivateKey)> {
    var ai, bi, ni := MatInverse(a, m), MatInverse(b, m), MatInverse(n, m);
    if m <= 1 || ai.None? || bi.None? || ni.None? then None
    else
      var k1 := Prod(Key1Word(a, b, n, ai.value, bi.value), m);
      var k2 := Prod(Key2Word(a, b, ai.value, bi.value, ni.value), m);
      Some((PublicKey(m, k1, k2), PrivateKey(a, b)))
  }

  /** Derived keys keep the modulus, return A and B as the private key, and have cells in [0, m). */
  lemma DeriveKeysShape(a: Mat2, b: Mat2, n: Mat2, m: int)
    requires DeriveKeys(a, b, n, m).Some?
    ensures var (pub, priv) := DeriveKeys(a, b, n, m).value;
      pub.modulus == m && priv == PrivateKey(a, b) &&
      Reduced(pub.key1, m) && Reduced(pub.key2, m)
  {
  }

  /** The product A A B A^-1 B A^-1 B^-1 B^-1 of the circulant middle of key1 A^-1 B key2 is the identity. */
  lemma CirculantMiddle(a: Mat2, b: Mat2, ai: Mat2, bi: Mat2, m: int)
    requires m > 1 && IsCirculant(a) && IsCirculant(b) && IsCirculant(ai) && IsCirculant(bi)
    requires Mul(a, ai, m) == Identity() && Mul(b, bi, m) == Identity()
    ensures Prod([a, a, b, ai, b, ai, bi, bi], m) == Identity()
  {
    CirculantsCommute(b, ai, m);
    SwapAt([a, a], b, ai, [b, ai, bi, bi], m);
    assert [a, a] + [b, ai] + [b, ai, bi, bi] == [a, a, b, ai, b, ai, bi, bi];
    CancelAt([a], a, ai, [b, b, ai, bi, bi], m);
    assert [a] + [a, ai] + [b, b, ai, bi, bi] == [a, a] + [ai, b] + [b, ai, bi, bi];
    SwapAt([a, b], b, ai, [bi, bi], m);
    assert [a] + [b, b, ai, bi, bi] == [a, b] + [b, ai] + [bi, bi];
    CancelAt([a, b, ai], b, bi, [bi], m);
    assert [a, b] + [ai, b] + [bi, bi] == [a, b, ai] + [b, bi] + [bi];
    SwapAt([a], b, ai, [bi], m);
    assert [a, b, ai] + [bi] == [a] + [b, ai] + [bi];
    CancelAt([], a, ai, [b, bi], m);
    assert [a] + [ai, b] + [bi] == [] + [a, ai] + [b, bi];
    CancelAt([], b, bi, [], m);
    assert [] + [b, bi] == [] + [b, bi] + [];
    assert [] + [b, bi] + [] == [b, bi];
  }

  /**
   * The identity decryption rests on: key1 * A^-1 * B * key2 == A^-1 * B,
   * whenever A and B are circulant and A, B, N are invertible.
   */
  lemma KeyCore(a: Mat2, b: Mat2, n: Mat2, ai: Mat2, bi: Mat2, ni: Mat2, m: int)
    requires m > 1 && IsCirculant(a) && IsCirculant(b) && IsCirculant(ai) && IsCirculant(bi)
    requires Mul(a, ai, m) == Identity() && Mul(ai, a, m) == Identity()
    requires Mul(b, bi, m) == Identity() && Mul(bi, b, m) == Identity()
    requires Mul(n, ni, m) == Identity()
    ensures Prod([Prod(Key1Word(a, b, n, ai, bi), m), ai, b, Prod(Key2Word(a, b, ai, bi, ni), m)], m)
         == Prod([ai, b], m)
  {
    var w1, w2 := Key1Word(a, b, n, ai, bi), Key2Word(a, b, ai, bi, ni);
    var k1, k2 := Prod(w1, m), Prod(w2, m);
    ProdSingle(k1, m); ReduceReduced(k1, m);
    ProdSingle(k2, m); ReduceReduced(k2, m);
    ReplaceAt([], [k1], w1, [ai, b, k2], m);
    assert [] + [k1] + [ai, b, k2] == [k1, ai, b, k2];
    ReplaceAt(w1 + [ai, b], [k2], w2, [], m);
    assert [] + w1 + [ai, b, k2] == w1 + [ai, b] + [k2] + [];
    var mid := [a, a, b, ai, b, ai, bi, bi];
    CirculantMiddle(a, b, ai, bi, m);
    ReplaceAt([ai, ai, bi, n], mid, [], [ni, a, b, b], m);
    assert w1 + [ai, b] + w2 + [] == [ai, ai, bi, n] + mid + [ni, a, b, b];
    CancelAt([ai, ai, bi], n, ni, [a, b, b], m);
    assert [ai, ai, bi, n] + [] + [ni, a, b, b] == [ai, ai, bi] + [n, ni] + [a, b, b];
    CirculantsCommute(bi, a, m);
    SwapAt([ai, ai], bi, a, [b, b], m);
    assert [ai, ai, bi] + [a, b, b] == [ai, ai] + [bi, a] + [b, b];
    CancelAt([ai], ai, a, [bi, b, b], m);
    assert [ai, ai] + [a, bi] + [b, b] == [ai] + [ai, a] + [bi, b, b];
    CancelAt([ai], bi, b, [b], m);
    assert [ai] + [bi, b, b] == [ai] + [bi, b] + [b];
    assert [ai] + [b] == [ai, b];
  }

  /** KeyCore for keys produced by DeriveKeys from circulant A and B. */
  lemma DerivedKeyCore(a: Mat2, b: Mat2, n: Mat2, m: int)
    requires IsCirculant(a) && IsCirculant(b) && DeriveKeys(a, b, n, m).Some?
    ensures var pub := DeriveKeys(a, b, n, m).value.0;
      var ai := MatInverse(a, m).value;
      Prod([pub.key1, ai, b, pub.key2], m) == Prod([ai, b], m)
  {
    var ai, bi, ni := MatInverse(a, m).value, MatInverse(b, m).value, MatInverse(n, m).value;
    MatInverseIsInverse(a, m);
    MatInverseIsInverse(b, m);
    MatInverseIsInverse(n, m);
    MatInverseCirculant(a, m);
    MatInverseCirculant(b, m);
    KeyCore(a, b, n, ai, bi, ni, m);
  }

  /** The search of main.py:81 finds A^-1 = [[92, 91], [91, 92]] modulo 95. */
  lemma FixedInverseA()
    ensures MatInverse(PrivA, Modulus) == Some(Circ(92, 91))
  {
    MatInverseFinds(PrivA, Modulus, Circ(92, 91));
  }

  /** The search of main.py:82 finds B^-1 = [[79, 78], [78, 79]] modulo 95. */
  lemma FixedInverseB()
    ensures MatInverse(PrivB, Modulus) == Some(Circ(79, 78))
  {
    MatInverseFinds(PrivB, Modulus, Circ(79, 78));
  }

  /** The search of main.py:83 finds N^-1 = [[14, 75], [6, 82]] modulo 95. */
  lemma FixedInverseN()
    ensures MatInverse(Mixer, Modulus) == Some(Mat2(14, 75, 6, 82))
  {
    MatInverseFinds(Mixer, Modulus, Mat2(14, 75, 6, 82));
  }

  /** A word of seven factors is multiplied left to right, reducing after every step. */
  lemma ProdSeven(w: seq<Mat2>, m: int)
    requires m > 0 && |w| == 7
    ensures Prod(w, m) == Mul(Mul(Mul(Mul(Mul(Mul(w[0], w[1], m), w[2], m), w[3], m), w[4], m), w[5], m), w[6], m)
  {
    ProdPair(w[0], w[1], m);
    assert w[..2] == [w[0], w[1]];
    ProdSnoc(w[..2], w[2], m);
    assert w[..2] + [w[2]] == w[..3];
    ProdSnoc(w[..3], w[3], m);
    assert w[..3] + [w[3]] == w[..4];
    ProdSnoc(w[..4], w[4], m);
    assert w[..4] + [w[4]] == w[..5];
    ProdSnoc(w[..5], w[5], m);
    assert w[..5] + [w[5]] == w[..6];
    ProdSnoc(w[..6], w[6], m);
    assert w[..6] + [w[6]] == w;
  }

  /** key1 modulo 95, folded step by step as main.py:89-94 does. */
  lemma FixedKey1()
    ensures var m, ai, bi := Modulus, Circ(92, 91), Circ(79, 78);
      Mul(Mul(Mul(Mul(Mul(Mul(ai, ai, m), bi, m), Mixer, m), PrivA, m), PrivA, m), PrivB, m) == Mat2(53, 30, 28, 19)
  {
    var m, ai, bi := Modulus, Circ(92, 91), Circ(79, 78);
    assert Mul(ai, ai, m) == Circ(25, 24);
    assert Mul(Circ(25, 24), bi, m) == Circ(47, 46);
    assert Mul(Circ(47, 46), Mixer, m) == Mat2(71, 48, 5, 91);
    assert Mul(Mat2(71, 48, 5, 91), PrivA, m) == Mat2(3, 75, 18, 9);
    assert Mul(Mat2(3, 75, 18, 9), PrivA, m) == Mat2(67, 44, 84, 75);
  }

  /** key2 modulo 95, folded step by step as main.py:96-101 does. */
  lemma FixedKey2()
    ensures var m, ai, bi, ni := Modulus, Circ(92, 91), Circ(79, 78), Mat2(14, 75, 6, 82);
      Mul(Mul(Mul(Mul(Mul(Mul(ai, bi, m), bi, m), ni, m), PrivA, m), PrivB, m), PrivB, m) == Mat2(84, 21, 60, 12)
  {
    var m, ai, bi, ni := Modulus, Circ(92, 91), Circ(79, 78), Mat2(14, 75, 6, 82);
    assert Mul(ai, bi, m) == Circ(21, 20);
    assert Mul(Circ(21, 20), bi, m) == Circ(84, 83);
    assert Mul(Circ(84, 83), ni, m) == Mat2(59, 91, 51, 3);
    assert Mul(Mat2(59, 91, 51, 3), PrivA, m) == Mat2(14, 46, 88, 40);
    assert Mul(Mat2(14, 46, 88, 40), PrivB, m) == Mat2(9, 41, 71, 23);
  }

  /** The keys get_keys derives modulo 95: none of the three searches fails, and key1, key2 take these values. */
  lemma FixedKeys()
    ensures DeriveKeys(PrivA, PrivB, Mixer, Modulus) ==
      Some((PublicKey(95, Mat2(53, 30, 28, 19), Mat2(84, 21, 60, 12)), PrivateKey(PrivA, PrivB)))
  {
    FixedInverseA();
    FixedInverseB();
    FixedInverseN();
    FixedKey1();
    FixedKey2();
    ProdSeven(Key1Word(PrivA, PrivB, Mixer, Circ(92, 91), Circ(79, 78)), Modulus);
    ProdSeven(Key2Word(PrivA, PrivB, Circ(92, 91), Circ(79, 78), Mat2(14, 75, 6, 82)), Modulus);
  }

  /**
   * get_keys (main.py:67-109): deterministic; private key [A, B]; public key
   * [95, key1, key2] with the chained products reduced at every step.
   */
  method GetKeys() returns (pub: PublicKey, priv: PrivateKey)
    ensures DeriveKeys(PrivA, PrivB, Mixer, Modulus) == Some((pub, priv))
    ensures priv == PrivateKey(PrivA, PrivB) && pub.modulus == 95
    ensures pub.key1 == Mat2(53, 30, 28, 19) && pub.key2 == Mat2(84, 21, 60, 12)
  {
    var mod := Modulus;
    var a, b, n := PrivA, PrivB, Mixer;
    FixedInverseA();
    FixedInverseB();
    FixedInverseN();
    var aInv := ModMatrixInverse(a, mod);
    var bInv := ModMatrixInverse(b, mod);
    var nInv := ModMatrixInverse(n, mod);
    var ai, bi, ni := aInv.value, bInv.value, nInv.value;

    priv := PrivateKey(a, b);

    var key1 := Mul(ai, ai, mod);
    key1 := Mul(key1, bi, mod);
    key1 := Mul(key1, n, mod);
    key1 := Mul(key1, a, mod);
    key1 := Mul(key1, a, mod);
    key1 := Mul(key1, b, mod);

    var key2 := Mul(ai, bi, mod);
    key2 := Mul(key2, bi, mod);
    key2 := Mul(key2, ni, mod);
    key2 := Mul(key2, a, mod);
    key2 := Mul(key2, b, mod);
    key2 := Mul(key2, b, mod);

    pub := PublicKey(mod, key1, key2);
    ProdSeven(Key1Word(a, b, n, ai, bi), mod);
    ProdSeven(Key2Word(a, b, ai, bi, ni), mod);
    FixedKeys();
  }
}

=== FILE: matrix.dfy ===
/**
 * 2x2 integer matrices and their arithmetic modulo m.
 *
 * The cipher multiplies with np.dot and reduces with np.mod after every
 * product; Mul is that pair of operations. Prod folds Mul from the left over a
 * word of matrices, which is how every key and ciphertext is computed, and the
 * rewrite lemmas at the end (SwapAt, CancelAt, ReplaceAt) are the algebra of
 * the ring of 2x2 matrices over Z/m that the decryption proof runs on.
 */
module Matrix {
  import Polynomial

  /** The matrix [[a, b], [c, d]]. */
  datatype Mat2 = Mat2(a: int, b: int, c: int, d: int)

  /** One ciphertext item [C1, C2]: the pair of matrices the cipher and the text codec exchange. */
  datatype CipherBlock = CipherBlock(c1: Mat2, c2: Mat2)

  function Identity(): Mat2 { Mat2(1, 0, 0, 1) }

  /** The matrix [[p, q], [q, p]]: the shape of both private keys and of every blinding matrix. */
  function Circ(p: int, q: int): Mat2 { Mat2(p, q, q, p) }

  predicate IsCirculant(x: Mat2) { x.a == x.d && x.b == x.c }

  /** The four cells of a matrix in row-major order. */
  function Cells(x: Mat2): seq<int> { [x.a, x.b, x.c, x.d] }

  /** Every cell lies in [0, m), as after np.mod with a positive modulus. */
  predicate Reduced(x: Mat2, m: int) {
    0 <= x.a < m && 0 <= x.b < m && 0 <= x.c < m && 0 <= x.d < m
  }

  /** np.dot on two 2x2 integer matrices, without reduction. */
  function Dot(x: Mat2, y: Mat2): Mat2 {
    Mat2(x.a * y.a + x.b * y.c, x.a * y.b + x.b * y.d,
         x.c * y.a + x.d * y.c, x.c * y.b + x.d * y.d)
  }

  /** `k * x` on a numpy matrix: every cell multiplied by k, without reduction. */
  function Scale(k: int, x: Mat2): Mat2 {
    Mat2(k * x.a, k * x.b, k * x.c, k * x.d)
  }

  /** np.mod(x, m) for a positive m. */
  function Reduce(x: Mat2, m: int): (r: Mat2)
    requires m > 0
    ensures Reduced(r, m)
  {
    Mat2(x.a % m, x.b % m, x.c % m, x.d % m)
  }

  /** np.mod(np.dot(x, y), m): the product in the ring of 2x2 matrices over Z/m. */
  function Mul(x: Mat2, y: Mat2, m: int): (r: Mat2)
    requires m > 0
    ensures Reduced(r, m)
  {
    Reduce(Dot(x, y), m)
  }

  /** The left-to-right chain of reduced products x1 * x2 * ... * xn mod m. */
  function Prod(s: seq<Mat2>, m: int): (r: Mat2)
    requires m > 0
    ensures m > 1 ==> Reduced(r, m)
  {
    if s == [] then Identity() else Mul(Prod(s[..|s| - 1], m), s[|s| - 1], m)
  }

  // ---------------------------------------------------------------------------
  // Integer facts about the Euclidean remainder

  lemma ModUnique(y: int, q: int, r: int, m: int)
    requires m > 0 && y == m * q + r && 0 <= r < m
    ensures y % m == r
  {
    var q', r' := y / m, y % m;
    assert m * (q - q') == r' - r;
    if q - q' >= 1 {
      assert false;
    } else if q - q' <= -1 {
      assert false;
    }
  }

  /** Adding a multiple of m does not change the remainder. */
  lemma ModShift(x: int, k: int, m: int)
    requires m > 0
    ensures (x + m * k) % m == x % m
  {
    assert x + m * k == m * (x / m + k) + x % m;
    ModUnique(x + m * k, x / m + k, x % m, m);
  }

  /** Reducing the left factors of a two-term sum of products leaves its remainder unchanged. */
  lemma ModLinear(a: int, b: int, e: int, g: int, m: int)
    requires m > 0
    ensures ((a % m) * e + (b % m) * g) % m == (a * e + b * g) % m
  {
    var qa, ra, qb, rb := a / m, a % m, b / m, b % m;
    assert a == m * qa + ra && b == m * qb + rb;
    ModLinearParts(qa, ra, qb, rb, e, g, m);
  }

  lemma ModLinearParts(qa: int, ra: int, qb: int, rb: int, e: int, g: int, m: int)
    requires m > 0
    ensures (ra * e + rb * g) % m == ((m * qa + ra) * e + (m * qb + rb) * g) % m
  {
    Polynomial.LinearSplit(qa, ra, qb, rb, e, g, m);
    ModShift(ra * e + rb * g, qa * e + qb * g, m);
  }

  lemma ModLinearRight(a: int, b: int, e: int, g: int, m: int)
    requires m > 0
    ensures (a * (e % m) + b * (g % m)) % m == (a * e + b * g) % m
  {
    ModLinear(e, g, a, b, m);
    assert a * (e % m) + b * (g % m) == (e % m) * a + (g % m) * b;
    assert a * e + b * g == e * a + g * b;
  }

  // ---------------------------------------------------------------------------
  // The ring laws of Mul

  lemma ReduceReduced(x: Mat2, m: int)
    requires m > 0 && Reduced(x, m)
    ensures Reduce(x, m) == x
  {
    ModUnique(x.a, 0, x.a, m);
    ModUnique(x.b, 0, x.b, m);
    ModUnique(x.c, 0, x.c, m);
    ModUnique(x.d, 0, x.d, m);
  }

  lemma MulReduceLeft(x: Mat2, y: Mat2, m: int)
    requires m > 0
    ensures Mul(Reduce(x, m), y, m) == Mul(x, y, m)
  {
    ModLinear(x.a, x.b, y.a, y.c, m);
    ModLinear(x.a, x.b, y.b, y.d, m);
    ModLinear(x.c, x.d, y.a, y.c, m);
    ModLinear(x.c, x.d, y.b, y.d, m);
  }

  lemma MulReduceRight(x: Mat2, y: Mat2, m: int)
    requires m > 0
    ensures Mul(x, Reduce(y, m), m) == Mul(x, y, m)
  {
    ModLinearRight(x.a, x.b, y.a, y.c, m);
    ModLinearRight(x.a, x.b, y.b, y.d, m);
    ModLinearRight(x.c, x.d, y.a, y.c, m);
    ModLinearRight(x.c, x.d, y.b, y.d, m);
  }

  lemma DotAssoc(x: Mat2, y: Mat2, z: Mat2)
    ensures Dot(Dot(x, y), z) == Dot(x, Dot(y, z))
  {
    Polynomial.AssocCell(x.a, x.b, y.a, y.b, y.c, y.d, z.a, z.c);
    Polynomial.AssocCell(x.a, x.b, y.a, y.b, y.c, y.d, z.b, z.d);
    Polynomial.AssocCell(x.c, x.d, y.a, y.b, y.c, y.d, z.a, z.c);
    Polynomial.AssocCell(x.c, x.d, y.a, y.b, y.c, y.d, z.b, z.d);
  }

  lemma MulAssoc(x: Mat2, y: Mat2, z: Mat2, m: int)
    requires m > 0
    ensures Mul(Mul(x, y, m), z, m) == Mul(x, Mul(y, z, m), m)
  {
    calc {
      Mul(Mul(x, y, m), z, m);
      { MulReduceLeft(Dot(x, y), z, m); }
      Reduce(Dot(Dot(x, y), z), m);
      { DotAssoc(x, y, z); }
      Reduce(Dot(x, Dot(y, z)), m);
      { MulReduceRight(x, Dot(y, z), m); }
      Mul(x, Mul(y, z, m), m);
    }
  }

  lemma MulIdentity(x: Mat2, m: int)
    requires m > 0
    ensures Mul(Identity(), x, m) == Reduce(x, m)
    ensures Mul(x, Identity(), m) == Reduce(x, m)
  {
    assert Dot(Identity(), x) == x;
    assert Dot(x, Identity()) == x;
  }

  /** Matrices of the form [[p, q], [q, p]] commute: the fact decryption rests on. */
  lemma CirculantsCommute(x: Mat2, y: Mat2, m: int)
    requires m > 0 && IsCirculant(x) && IsCirculant(y)
    ensures Mul(x, y, m) == Mul(y, x, m)
    ensures IsCirculant(Mul(x, y, m))
  {
    assert Dot(x, y) == Dot(y, x);
  }

  /** A scalar matrix k * I commutes with every matrix, and multiplying by it is numpy's `k * x`. */
  lemma ScalarCommutes(k: int, x: Mat2, m: int)
    requires m > 0
    ensures Mul(Circ(k, 0), x, m) == Mul(x, Circ(k, 0), m) == Reduce(Scale(k, x), m)
  {
    assert Dot(Circ(k, 0), x) == Scale(k, x) == Dot(x, Circ(k, 0));
  }

  // ---------------------------------------------------------------------------
  // Words of matrices

  lemma ProdSingle(x: Mat2, m: int)
    requires m > 0
    ensures Prod([x], m) == Reduce(x, m)
  {
    assert [x][..0] == [];
    MulIdentity(x, m);
  }

  lemma ProdPair(x: Mat2, y: Mat2, m: int)
    requires m > 0
    ensures Prod([x, y], m) == Mul(x, y, m)
  {
    assert [x, y][..1] == [x];
    ProdSingle(x, m);
    MulReduceLeft(x, y, m);
  }

  lemma {:induction false} ProdAppend(s: seq<Mat2>, t: seq<Mat2>, m: int)
    requires m > 1
    ensures Prod(s + t, m) == Mul(Prod(s, m), Prod(t, m), m)
    decreases |t|
  {
    if t == [] {
      assert s + t == s;
      MulIdentity(Prod(s, m), m);
      ReduceReduced(Prod(s, m), m);
    } else {
      var t', z := t[..|t| - 1], t[|t| - 1];
      ProdAppend(s, t', m);
      ProdSnoc(s + t', z, m);
      assert s + t' + [z] == s + t;
      assert t' + [z] == t;
      ProdSnoc(t', z, m);
      MulAssoc(Prod(s, m), Prod(t', m), z, m);
    }
  }

  lemma ProdSnoc(s: seq<Mat2>, z: Mat2, m: int)
    requires m > 0
    ensures Prod(s + [z], m) == Mul(Prod(s, m), z, m)
  {
    assert (s + [z])[..|s|] == s;
  }

  /** A subword may be replaced by any word with the same product. */
  lemma ReplaceAt(s: seq<Mat2>, w1: seq<Mat2>, w2: seq<Mat2>, t: seq<Mat2>, m: int)
    requires m > 1 && Prod(w1, m) == Prod(w2, m)
    ensures Prod(s + w1 + t, m) == Prod(s + w2 + t, m)
  {
    ProdAppend(s + w1, t, m);
    ProdAppend(s, w1, m);
    ProdAppend(s + w2, t, m);
    ProdAppend(s, w2, m);
  }

  /** Two neighbours that commute may be exchanged. */
  lemma SwapAt(s: seq<Mat2>, x: Mat2, y: Mat2, t: seq<Mat2>, m: int)
    requires m > 1 && Mul(x, y, m) == Mul(y, x, m)
    ensures Prod(s + [x, y] + t, m) == Prod(s + [y, x] + t, m)
  {
    ProdPair(x, y, m);
    ProdPair(y, x, m);
    ReplaceAt(s, [x, y], [y, x], t, m);
  }

  /** Two neighbours whose product is the identity cancel. */
  lemma CancelAt(s: seq<Mat2>, x: Mat2, y: Mat2, t: seq<Mat2>, m: int)
    requires m > 1 && Mul(x, y, m) == Identity()
    ensures Prod(s + [x, y] + t, m) == Prod(s + t, m)
  {
    ProdPair(x, y, m);
    ReplaceAt(s, [x, y], [], t, m);
    assert s + [] + t == s + t;
  }

  // ---------------------------------------------------------------------------
  // Congruence modulo m

  predicate Cong(x: int, y: int, m: int)
    requires m > 0
  {
    x % m == y % m
  }

  lemma CongLinear(k1: int, x1: int, y1: int, k2: int, x2: int, y2: int, m: int)
    requires m > 0 && Cong(x1, y1, m) && Cong(x2, y2, m)
    ensures Cong(k1 * x1 + k2 * x2, k1 * y1 + k2 * y2, m)
  {
    ModLinearRight(k1, k2, x1, x2, m);
    ModLinearRight(k1, k2, y1, y2, m);
  }

  lemma CongMul(x1: int, y1: int, x2: int, y2: int, m: int)
    requires m > 0 && Cong(x1, y1, m) && Cong(x2, y2, m)
    ensures Cong(x1 * x2, y1 * y2, m)
  {
    CongLinear(x1, x2, y2, 0, 0, 0, m);
    CongLinear(y2, x1, y1, 0, 0, 0, m);
    assert y2 * x1 == x1 * y2 && y2 * y1 == y1 * y2;
  }

  /** When delta * eps == 1 mod m, delta may be divided out of a congruence. */
  lemma CongCancel(delta: int, eps: int, t: int, v: int, m: int)
    requires m > 0 && Cong(delta * eps, 1, m) && Cong(delta * t, v, m)
    ensures Cong(t, eps * v, m)
  {
    CongLinear(eps, delta * t, v, 0, 0, 0, m);
    CongMul(delta * eps, 1, t, t, m);
    assert eps * (delta * t) + 0 * 0 == (delta * eps) * t;
    assert eps * v + 0 * 0 == eps * v;
  }

  /** The four congruences that say [[e, f], [g, h]] is a right inverse of [[a, b], [c, d]]. */
  predicate RightInverseCells(a: int, b: int, c: int, d: int, e: int, f: int, g: int, h: int, m: int)
    requires m > 0
  {
    Cong(a * e + b * g, 1, m) && Cong(a * f + b * h, 0, m) &&
    Cong(c * e + d * g, 0, m) && Cong(c * f + d * h, 1, m)
  }

  /** A congruence between two linear combinations of congruent terms. */
  lemma CongCombine(k1: int, x1: int, y1: int, k2: int, x2: int, y2: int, lhs: int, rhs: int, m: int)
    requires m > 0 && Cong(x1, y1, m) && Cong(x2, y2, m)
    requires lhs == k1 * x1 + k2 * x2 && rhs == k1 * y1 + k2 * y2
    ensures Cong(lhs, rhs, m)
  {
    CongLinear(k1, x1, y1, k2, x2, y2, m);
  }

  /** det(x) * y == adj(x) when x * y == I. */
  lemma AdjugateCells(a: int, b: int, c: int, d: int, e: int, f: int, g: int, h: int, m: int)
    requires m > 0 && RightInverseCells(a, b, c, d, e, f, g, h, m)
    ensures Cong((a * d - b * c) * e, d, m) && Cong((a * d - b * c) * f, -b, m)
    ensures Cong((a * d - b * c) * g, -c, m) && Cong((a * d - b * c) * h, a, m)
  {
    Polynomial.AdjugateIdentities(a, b, c, d, e, f, g, h);
    CongCombine(d, a * e + b * g, 1, -b, c * e + d * g, 0, (a * d - b * c) * e, d, m);
    CongCombine(d, a * f + b * h, 0, -b, c * f + d * h, 1, (a * d - b * c) * f, -b, m);
    CongCombine(a, c * e + d * g, 0, -c, a * e + b * g, 1, (a * d - b * c) * g, -c, m);
    CongCombine(a, c * f + d * h, 1, -c, a * f + b * h, 0, (a * d - b * c) * h, a, m);
  }

  /** det(x) * det(y) == det(x * y) == 1 when x * y == I. */
  lemma DeterminantCells(a: int, b: int, c: int, d: int, e: int, f: int, g: int, h: int, m: int)
    requires m > 0 && RightInverseCells(a, b, c, d, e, f, g, h, m)
    ensures Cong((a * d - b * c) * (e * h - f * g), 1, m)
  {
    var p1, p2, p3, p4 := a * e + b * g, a * f + b * h, c * e + d * g, c * f + d * h;
    Polynomial.DeterminantIdentity(a, b, c, d, e, f, g, h);
    CongMul(p1, 1, p4, 1, m);
    CongMul(p2, 0, p3, 0, m);
    CongCombine(1, p1 * p4, 1, -1, p2 * p3, 0, (a * d - b * c) * (e * h - f * g), 1, m);
  }

  /**
   * One cell of y * x, as k1 * e' + k2 * f', when delta * e' == ve and
   * delta * f' == vf and k1 * ve + k2 * vf == coef * delta.
   */
  lemma LeftCell(delta: int, eps: int, e': int, f': int, ve: int, vf: int, k1: int, k2: int, coef: int, m: int)
    requires m > 0 && Cong(delta * eps, 1, m)
    requires Cong(delta * e', ve, m) && Cong(delta * f', vf, m)
    requires k1 * ve + k2 * vf == coef * delta
    ensures Cong(e' * k1 + f' * k2, coef, m)
  {
    CongLinear(k1, delta * e', ve, k2, delta * f', vf, m);
    assert delta * (e' * k1 + f' * k2) == k1 * (delta * e') + k2 * (delta * f');
    CongCancel(delta, eps, e' * k1 + f' * k2, k1 * ve + k2 * vf, m);
    CongMul(delta * eps, 1, coef, coef, m);
    assert eps * (coef * delta) == (delta * eps) * coef;
  }

  /** x * y == I exactly when the four cells of the product are congruent to those of I. */
  lemma ProductIsIdentity(x: Mat2, y: Mat2, m: int)
    requires m > 1
    ensures Mul(x, y, m) == Identity() <==> RightInverseCells(x.a, x.b, x.c, x.d, y.a, y.b, y.c, y.d, m)
  {
    ModUnique(1, 0, 1, m);
    ModUnique(0, 0, 0, m);
  }

  /**
   * Over the commutative ring Z/m a right inverse of a 2x2 matrix is also a left
   * inverse: multiplying by the adjugate gives det(x) * y == adj(x), and
   * det(x) * det(y) == 1 because det(x * y) == det(I).
   */
  lemma RightInverseIsLeftInverse(x: Mat2, y: Mat2, m: int)
    requires m > 0 && Mul(x, y, m) == Identity()
    ensures Mul(y, x, m) == Identity()
  {
    assert m > 1 by { assert Reduced(Mul(x, y, m), m); }
    ProductIsIdentity(x, y, m);
    var a, b, c, d := x.a, x.b, x.c, x.d;
    var e, f, g, h := y.a, y.b, y.c, y.d;
    var delta, eps := a * d - b * c, e * h - f * g;
    AdjugateCells(a, b, c, d, e, f, g, h, m);
    DeterminantCells(a, b, c, d, e, f, g, h, m);
    LeftCell(delta, eps, e, f, d, -b, a, c, 1, m);
    LeftCell(delta, eps, e, f, d, -b, b, d, 0, m);
    LeftCell(delta, eps, g, h, -c, a, a, c, 0, m);
    LeftCell(delta, eps, g, h, -c, a, b, d, 1, m);
    ProductIsIdentity(y, x, m);
  }

  // ---------------------------------------------------------------------------
  // Rewriting words whose letters commute

  /** A scalar matrix k * I may be moved from behind any subword w to in front of it. */
  lemma ScalarToFront(s: seq<Mat2>, w: seq<Mat2>, k: int, t: seq<Mat2>, m: int)
    requires m > 1
    ensures Prod(s + w + [Circ(k, 0)] + t, m) == Prod(s + [Circ(k, 0)] + w + t, m)
  {
    var K := Circ(k, 0);
    calc {
      Prod(w + [K], m);
      { ProdSnoc(w, K, m); }
      Mul(Prod(w, m), K, m);
      { ScalarCommutes(k, Prod(w, m), m); }
      Mul(K, Prod(w, m), m);
      { MulReduceLeft(K, Prod(w, m), m); ProdSingle(K, m); }
      Mul(Prod([K], m), Prod(w, m), m);
      { ProdAppend([K], w, m); }
      Prod([K] + w, m);
    }
    ReplaceAt(s, w + [K], [K] + w, t, m);
    assert s + w + [K] + t == s + (w + [K]) + t;
    assert s + [K] + w + t == s + ([K] + w) + t;
  }

  /** Conjugating a subword with a circulant product by a circulant x and its inverse y leaves the word's product unchanged. */
  lemma ConjugateCirculant(s: seq<Mat2>, x: Mat2, w: seq<Mat2>, y: Mat2, t: seq<Mat2>, m: int)
    requires m > 1 && IsCirculant(x) && IsCirculant(Prod(w, m)) && Mul(x, y, m) == Identity()
    ensures Prod(s + [x] + w + [y] + t, m) == Prod(s + w + t, m)
  {
    var q := Prod(w, m);
    calc {
      Prod([x] + w + [y], m);
      { ProdSnoc([x] + w, y, m); }
      Mul(Prod([x] + w, m), y, m);
      { ProdAppend([x], w, m); ProdSingle(x, m); }
      Mul(Mul(Reduce(x, m), q, m), y, m);
      { MulReduceLeft(x, q, m); CirculantsCommute(x, q, m); }
      Mul(Mul(q, x, m), y, m);
      { MulAssoc(q, x, y, m); }
      Mul(q, Identity(), m);
      { MulIdentity(q, m); ReduceReduced(q, m); }
      q;
    }
    ReplaceAt(s, [x] + w + [y], w, t, m);
    assert s + [x] + w + [y] + t == s + ([x] + w + [y]) + t;
  }
}

=== FILE: pipeline.dfy ===
/**
 * The whole presentation flow of main.py (lines 300-338) without its console
 * output: text -> blocks -> ciphertext pairs -> framed string, and back from
 * the characters between the frame -> pairs -> blocks -> text.
 */
module Pipeline {
  import opened Wrappers
  import opened Matrix
  import opened Keys
  import opened Cipher
  import opened Codec

  /** Every character is one of the 95 the cipher works on: codes 32 to 126. */
  predicate Printable(s: string) {
    forall i :: 0 <= i < |s| ==> 32 <= s[i] as int < 32 + Modulus
  }

  /** The blocks of a printable text, spaces padding included, are already reduced modulo 95. */
  lemma PrintableBlocksReduced(s: string)
    requires Printable(s)
    ensures forall q :: 0 <= q < |Blocks(Padded(s))| ==> Reduced(Blocks(Padded(s))[q], Modulus)
  {
    var ms := Blocks(Padded(s));
    BlocksOfPadded(s);
    forall q | 0 <= q < |ms| ensures Reduced(ms[q], Modulus) {
      forall j | 0 <= j < 4 ensures 0 <= Cells(ms[q])[j] < Modulus {
        FlattenAt(ms, q, j);
      }
      assert Cells(ms[q]) == [ms[q].a, ms[q].b, ms[q].c, ms[q].d];
    }
  }

  /** Decrypting the pairs of printable blocks under the fixed keys gives the blocks back unchanged. */
  lemma DecryptFixed(ps: seq<Mat2>, bls: seq<Blinding>, cs: seq<CipherBlock>)
    requires forall q :: 0 <= q < |ps| ==> Reduced(ps[q], Modulus)
    requires |bls| == |cs| == |ps|
    requires forall i :: 0 <= i < |bls| ==> Accepted(bls[i], Modulus)
    requires forall i :: 0 <= i < |cs| ==> cs[i] == EncryptBlock(ps[i], PublicKey(95, Mat2(53, 30, 28, 19), Mat2(84, 21, 60, 12)), bls[i])
    ensures Decrypt(cs, PrivateKey(PrivA, PrivB), Modulus) == Success(ps)
  {
    FixedKeys();
    DecryptEncrypt(cs, ps, bls, PrivA, PrivB, Mixer, Modulus);
    var d := Decrypt(cs, PrivateKey(PrivA, PrivB), Modulus).value;
    forall i | 0 <= i < |ps| ensures d[i] == ps[i] {
      ReduceReduced(ps[i], Modulus);
    }
    assert d == ps;
  }

  /**
   * encrypt followed by decrypt for any text: the characters between '<' and
   * '>' decrypt to the blocks of the padded text, each cell reduced modulo 95.
   */
  lemma EncryptDecryptReduces(s: string, bls: seq<Blinding>, cs: seq<CipherBlock>)
    requires |bls| == |cs| == |Blocks(Padded(s))|
    requires forall i :: 0 <= i < |bls| ==> Accepted(bls[i], Modulus)
    requires forall i :: 0 <= i < |cs| ==>
      cs[i] == EncryptBlock(Blocks(Padded(s))[i], PublicKey(95, Mat2(53, 30, 28, 19), Mat2(84, 21, 60, 12)), bls[i])
    ensures FramedText(cs).Success?
    ensures var f := FramedText(cs).value;
      var d := Decrypt(Pairs(f[1..|f| - 1]), PrivateKey(PrivA, PrivB), Modulus);
      var ps := Blocks(Padded(s));
      d.Success? && |d.value| == |ps| && forall q :: 0 <= q < |ps| ==> d.value[q] == Reduce(ps[q], Modulus)
  {
    FixedKeys();
    DecryptEncrypt(cs, Blocks(Padded(s)), bls, PrivA, PrivB, Mixer, Modulus);
    FramedTextOfReduced(cs, Modulus);
    PairsRoundTrip(cs);
  }

  /** The text "\n" pads to one block whose first cell is -22. */
  lemma LineFeedBlocks()
    ensures Blocks(Padded("\n")) == [Mat2(-22, 0, 0, 0)]
  {
    assert Padded("\n") == "\n   ";
    assert BlockAt(Padded("\n"), 0) == Mat2(-22, 0, 0, 0);
  }

  /** The block with cells 73, 0, 0, 0 reads as "i" and three spaces. */
  lemma LineFeedResultChars()
    ensures Chars(Flatten([Mat2(73, 0, 0, 0)])) == Success("i   ")
  {
    var d := [Mat2(73, 0, 0, 0)];
    forall j | 0 <= j < 4 ensures Flatten(d)[j] == [73, 0, 0, 0][j] {
      FlattenAt(d, 0, j);
    }
    assert Flatten(d) == [73, 0, 0, 0];
    var t := Chars([73, 0, 0, 0]).value;
    assert t[0] as int == 105 && t[1] as int == 32 && t[2] as int == 32 && t[3] as int == 32;
    assert t == "i   ";
  }

  /**
   * Only printable text comes back: a line feed (code 10, cell -22) decrypts to
   * cell 73, so the text "\n" is read back as "i" followed by the three spaces
   * of padding.
   */
  lemma LineFeedComesBackAsI(bls: seq<Blinding>, cs: seq<CipherBlock>)
    requires |bls| == |cs| == 1 && Accepted(bls[0], Modulus)
    requires cs[0] == EncryptBlock(Mat2(-22, 0, 0, 0), PublicKey(95, Mat2(53, 30, 28, 19), Mat2(84, 21, 60, 12)), bls[0])
    ensures FramedText(cs).Success?
    ensures var f := FramedText(cs).value;
      var d := Decrypt(Pairs(f[1..|f| - 1]), PrivateKey(PrivA, PrivB), Modulus);
      d.Success? && Chars(Flatten(d.value)) == Success("i   ") && "i   " != Padded("\n")
  {
    LineFeedBlocks();
    EncryptDecryptReduces("\n", bls, cs);
    var f := FramedText(cs).value;
    var d := Decrypt(Pairs(f[1..|f| - 1]), PrivateKey(PrivA, PrivB), Modulus).value;
    assert d[0] == Reduce(Mat2(-22, 0, 0, 0), Modulus);
    assert d == [Mat2(73, 0, 0, 0)];
    LineFeedResultChars();
    assert Padded("\n")[0] == '\n';
  }

  /**
   * encrypt followed by decrypt: a printable text, padded, encrypted under the
   * fixed public key with any accepted blindings and written out framed,
   * decrypts with the fixed private key to the padded text, when the
   * characters between '<' and '>' are read back.
   */
  lemma EncryptDecryptText(s: string, bls: seq<Blinding>, cs: seq<CipherBlock>)
    requires Printable(s)
    requires |bls| == |cs| == |Blocks(Padded(s))|
    requires forall i :: 0 <= i < |bls| ==> Accepted(bls[i], Modulus)
    requires forall i :: 0 <= i < |cs| ==>
      cs[i] == EncryptBlock(Blocks(Padded(s))[i], PublicKey(95, Mat2(53, 30, 28, 19), Mat2(84, 21, 60, 12)), bls[i])
    ensures FramedText(cs).Success?
    ensures var f := FramedText(cs).value;
      var d := Decrypt(Pairs(f[1..|f| - 1]), PrivateKey(PrivA, PrivB), Modulus);
      d.Success? && Chars(Flatten(d.value)) == Success(Padded(s))
  {
    var ps := Blocks(Padded(s));
    PrintableBlocksReduced(s);
    DecryptFixed(ps, bls, cs);
    FramedTextOfReduced(cs, Modulus);
    PairsRoundTrip(cs);
    TextRoundTrip(s);
  }
}

=== FILE: polynomial.dfy ===
/** Integer polynomial identities used by the matrix algebra, kept apart from the modular facts. */
module Polynomial {

  /** Splitting quotient and remainder out of a two-term sum of products. */
  lemma LinearSplit(qa: int, ra: int, qb: int, rb: int, e: int, g: int, m: int)
    ensures (m * qa + ra) * e + (m * qb + rb) * g == (ra * e + rb * g) + m * (qa * e + qb * g)
  {
  }

  /** One cell of (x * y) * z == x * (y * z). */
  lemma AssocCell(a: int, b: int, e: int, f: int, g: int, h: int, i: int, k: int)
    ensures (a * e + b * g) * i + (a * f + b * h) * k == a * (e * i + f * k) + b * (g * i + h * k)
  {
  }

  /** The ring identities behind AdjugateCells and DeterminantCells. */
  lemma AdjugateIdentities(a: int, b: int, c: int, d: int, e: int, f: int, g: int, h: int)
    ensures (a * d - b * c) * e == d * (a * e + b * g) + -b * (c * e + d * g)
    ensures (a * d - b * c) * f == d * (a * f + b * h) + -b * (c * f + d * h)
    ensures (a * d - b * c) * g == a * (c * e + d * g) + -c * (a * e + b * g)
    ensures (a * d - b * c) * h == a * (c * f + d * h) + -c * (a * f + b * h)
  {
  }

  /** det(x) * det(y) == det(x * y), written out. */
  lemma DeterminantIdentity(a: int, b: int, c: int, d: int, e: int, f: int, g: int, h: int)
    ensures (a * d - b * c) * (e * h - f * g)
         == 1 * ((a * e + b * g) * (c * f + d * h)) + -1 * ((a * f + b * h) * (c * e + d * g))
  {
    calc {
      1 * ((a * e + b * g) * (c * f + d * h)) + -1 * ((a * f + b * h) * (c * e + d * g));
      { Expand(a * e, b * g, c * f, d * h);
        Expand(a * f, b * h, c * e, d * g); }
      (a * e) * (c * f) + (a * e) * (d * h) + (b * g) * (c * f) + (b * g) * (d * h)
        - ((a * f) * (c * e) + (a * f) * (d * g) + (b * h) * (c * e) + (b * h) * (d * g));
      { Swap4(a, e, c, f); Swap4(a, f, c, e); Swap4(b, g, d, h); Swap4(b, h, d, g); }
      (a * e) * (d * h) + (b * g) * (c * f) - (a * f) * (d * g) - (b * h) * (c * e);
      { Swap4(a, e, d, h); Swap4(b, g, c, f); Swap4(a, f, d, g); Swap4(b, h, c, e); }
      (a * d) * (e * h) + (b * c) * (g * f) - (a * d) * (f * g) - (b * c) * (h * e);
      { Expand(a * d, -(b * c), e * h, -(f * g)); }
      (a * d - b * c) * (e * h - f * g);
    }
  }

  /** The product of two binomials, multiplied out. */
  lemma Expand(x1: int, x2: int, y1: int, y2: int)
    ensures (x1 + x2) * (y1 + y2) == x1 * y1 + x1 * y2 + x2 * y1 + x2 * y2
  {
  }

  /** (x * y) * (z * w) == (x * z) * (y * w). */
  lemma Swap4(x: int, y: int, z: int, w: int)
    ensures (x * y) * (z * w) == (x * z) * (y * w)
  {
  }
}

=== FILE: wrappers.dfy ===
/** Success/failure values that replace the source's "error" string sentinel. */
module Wrappers {

  /** The result of a search: `None` where the source returns the string "error". */
  datatype Option<+T> = None | Some(value: T)

  /** The result of an operation that the source lets raise an exception. */
  datatype Result<+T, +E> = Success(value: T) | Failure(error: E)
}
